=== FILE: README.md ===
# Cyber-Ninja-Astronaut: the game simulation in Dafny

A Dafny model of the per-tick simulation of Cyber-Ninja-Astronaut, a browser
side-scroller written in JavaScript (`game.js`). The player runs and jumps
across generated platforms. Some platforms slide back and forth, some carry
spikes, and some carry walking enemies or shooting drones. The player
shoots bullets (key F). A landing on a platform other than the one last landed on scores 10, and
each bullet hit on an enemy scores 20. Shield pick-ups make the player
immune to spikes, enemies and drone fire for five seconds. Falling out of
the view ends the run.

The model is functional. Every game object is an immutable datatype with
`real` coordinates. Every piece of the game loop's `update()` is a pure
function over a `World` record. The inputs the JavaScript reads from its
environment are parameters:
- the key flags (`Movement.Keys`);
- the view size (`viewWidth`, `viewHeight`);
- the random draws (`Generator.Draws`, each a real in [0, 1));
- the stored high score (`Game.Initial`).

Modules, one per part of `game.js`:

| module | models |
|---|---|
| `Common` | option type, direction (±1), random draw, order-keeping filter, two arithmetic lemmas |
| `Animation` | class `Animation`: the frame counter |
| `Geometry` | the axis-aligned box-overlap test every collision uses |
| `Shield` | `activateShield`, `updateShield` |
| `Platforms` | class `Platform`: constructor, spikes, oscillation |
| `Projectiles` | classes `Bullet` and `ShieldPowerUp` |
| `Enemies` | classes `NonShootingEnemy` and `ShootingEnemy` |
| `Movement` | `handleMovement`: walking, gravity, landing, spikes, scoring, jumping, falling |
| `Generator` | `generatePlatforms` |
| `PlayerAnimation` | the clip choice and clip advance in `drawPlayer` |
| `Game` | the world, `update()`, `resetGame`, the key handlers, `camera.update` |
| `Scenario` | the opening of a run, followed tick by tick |

Behaviours of `game.js` the model keeps as written:
- A moving platform's spikes move with the direction taken *after* the
  bound check. On the tick a platform turns round, its spikes shift against
  it by twice its speed (`Platforms.Update`, `Platforms.SpikeDrift`).
- A shield pick-up is offered on any new platform once the score reaches
  150, moving or spiked alike. Enemies need a static, spike-free platform
  and a score of 50. One might expect pick-ups to be gated like enemies;
  the model follows the code, which gates them by score alone.
- Landing on spikes under a shield sets the player on the platform but pays
  nothing and does not record the platform.
- The high score is raised only when the player falls out of the view. A
  death on spikes, by an enemy or by a drone bullet leaves it alone.
- `explode()` does not reset the explosion timer. An exploding enemy can
  still be hit (20 points each time) and still kills on contact.
- The F key fires even after the game is over.
- A reset keeps the player's vertical speed, facing, airborne flag, the
  camera and the animation clips.

## Model

| member | source | states |
|---|---|---|
| Animation.New | game.js:81-86 | a new clip shows its first frame with nothing counted yet |
| Animation.CurrentFrame | game.js:96-98 | the frame on show is one of the clip's frames |
| Animation.Update | game.js:88-94 | the frame index stays in range; the count restarts exactly when it reaches the frame rate, and only then does the frame move on by one, wrapping round; a one-frame clip stays at frame 0 |
| Animation.RunWithinPeriod | game.js:88-94 | from a fresh count, fewer than frameRate updates only count and never change the frame |
| Animation.RunOnePeriod | game.js:88-94 | from a fresh count, exactly frameRate updates move on one frame and leave the count at 0 |
| Animation.RunPeriods | game.js:88-94 | m whole periods move the frame on by m, wrapping round modulo the number of frames |
| Animation.SingleFrameStill | game.js:88-94 | a one-frame clip shows frame 0 after any number of updates |
| Geometry.OverlapsIffSharedPoint | game.js:414-421 | for boxes with area, the game's overlap test holds exactly when the boxes share an interior point, and it is symmetric |
| Shield.Activate | game.js:581-584 | the shield is up with duration × 60 ticks left |
| Shield.Update | game.js:586-593 | a lowered shield is unchanged; a raised one loses one tick and stays up exactly while ticks remain |
| Shield.CountDown | game.js:586-593 | a shield raised with t ≥ 1 ticks is up for the first t − 1 ticks, down from tick t on, with its count at 0 |
| Shield.ActivateExpires | game.js:581-593 | a shield raised for d ≥ 1 seconds is up after n ticks exactly when n < d × 60; once down it stays down |
| Platforms.New | game.js:179-202 | the constructor records the origin, heads right, has spikes exactly when asked, a third of the width wide, placed on the top when the platform is 60 to 180 wide; the platform starts in its oscillation band |
| Platforms.Update | game.js:204-214 | a static platform is unchanged; a moving one steps by direction × speed and turns round exactly when the step leaves the ±100 range; the spikes keep their offset on a tick without a turn and shift by twice the speed against the old direction on a turn |
| Platforms.UpdateOscillates | game.js:204-214 | one tick keeps a platform within 102 of its origin and heading back once past either end of the range |
| Platforms.RunOscillates | game.js:204-214 | a moving platform stays within 102 of its origin for ever; a static one never changes |
| Platforms.StepShift | game.js:206-211 | one tick keeps the spikes' offset minus the platform's signed step |
| Platforms.SpikeDrift | game.js:206-211 | over any number of ticks the spikes' offset minus the signed step is constant, so the spikes are back in place whenever the platform heads its starting way |
| Projectiles.Update | game.js:405-407 | a bullet moves 8 per tick in its direction and keeps its height |
| Projectiles.RunFlies | game.js:405-407 | after n ticks a bullet has moved exactly 8 × n in its direction and kept its height |
| Enemies.Spawn | game.js:242-255 | an enemy starts a quarter of the way along its platform, standing on the top, heading right, with patrol bounds 10 inside the platform's ends |
| Enemies.NewWalker | game.js:242-255 | a walker is 48 × 64, stands on the platform, and on a platform at least 80 wide starts inside the platform and its patrol range |
| Enemies.NewDrone | game.js:308-323 | a drone is 30 × 40 with its shot count-down at 0, stands on the platform, and on a platform at least 80 wide starts inside its patrol range |
| Enemies.Explode | game.js:301-304 | the enemy is exploding, in the same place, with its explosion timer untouched; exploding twice changes nothing |
| Enemies.Shoot | game.js:382-387 | a drone's bullet starts at the drone's centre and heads right exactly when the player is right of the drone |
| Enemies.Patrol | game.js:270-274 | the patrol step moves by direction × 2 and turns round exactly at or past a bound |
| Enemies.Update | game.js:325-353 | an exploding enemy only counts, and is removed exactly on the 30th count; any other enemy patrols; a drone fires exactly when its count-down is ≤ 0, restarting it at 100, and otherwise counts down; the patrol invariant is kept |
| Enemies.ExplosionLifecycle | game.js:258-268 | an exploding enemy stays frozen for the rest of its 30 ticks and is gone from the tick that completes them |
| Enemies.ExplodedRemovedAfter30 | game.js:258-268 | after explode() on a fresh enemy, it is still present, in place and facing the same way, after each of the next 29 updates, and the 30th removes it |
| Enemies.PatrolPersists | game.js:269-276 | an enemy that starts patrolling keeps patrolling for as long as it exists |
| Enemies.DroneCadence | game.js:345-351 | from count-down t in [0, 100], n updates fire exactly (n + 100 − t) div 101 bullets, wherever the player is: from 0, updates 1, 102, 203, … |
| Enemies.ExplodingNeverShoots | game.js:325-337 | an exploding enemy fires no bullet over any number of updates |
| Movement.Walk | game.js:499-506 | left moves 6 back and faces left, right moves 6 on and faces right, in that order, so both together cancel and face right; nothing else changes |
| Movement.Fall | game.js:508-509 | the vertical speed grows by 0.5 and the player then drops by the new speed; nothing else changes |
| Movement.Touch | game.js:515-543 | meeting a platform does nothing unless the swept landing test holds; it kills exactly on unshielded spikes; otherwise the player rests on the top with speed 0; it pays 10 exactly on a spike-free landing on a platform other than the last one; a moving platform carries the player |
| Movement.NoSecondPay | game.js:539-542 | a platform that has just paid cannot pay again on the next landing, however it has moved |
| Movement.SweepPlatforms | game.js:511-545 | every platform moves once; the score rises by at most 10 per platform and never falls; a player that lands nowhere is unchanged; a landed player has speed 0; only an unshielded player dies |
| Movement.BeforeScore | game.js:511-545 | after meeting the first n moved platforms in order, the score has risen by exactly 10 for each of them that paid |
| Movement.SweepPlayer | game.js:511-545 | the sweep leaves the player exactly as meeting each moved platform in turn, in order, leaves it |
| Movement.SweepPlayerStep | game.js:511-545 | if the rest of the sweep leaves the player as the rest of the platforms, met in turn, do, the whole sweep does too |
| Movement.SweepKilled | game.js:511-545 | the sweep kills exactly when some platform, met by the player as the platforms before it left it, kills |
| Movement.SweepLanded | game.js:511-545 | the player is on a platform after the sweep exactly when it landed on some platform, met in turn |
| Movement.SweepMeetsEach | game.js:511-545 | the sweep's player, kill flag and landing flag are those of meeting the moved platforms one by one, and the score rises by 10 per paying platform |
| Movement.HandleMovement | game.js:498-579 | the player is the one left by walking, falling and meeting every moved platform in turn, except for the jump's speed; without a landing gravity applies and the walk's x stands; the score rises by 10 per paying platform; the player is on a platform exactly when it landed on one; a jump starts exactly when the key is held while standing; the landing flag is set exactly on a landing from the air; the player fell exactly when below the view; it died exactly when it fell or some platform killed it; the high score becomes the maximum exactly on a fall |
| Generator.NextPlatform | game.js:459-469 | the next platform is 180 × 20, 80 to under 200 past the last one, within 30 above or below it and never below 120 above the view's bottom; it moves exactly when its draw exceeds 0.6, and has spikes exactly when the score is ≥ 50 and its draw exceeds 0.7 |
| Generator.NewEnemies | game.js:463-478 | enemies appear only with score ≥ 50 on a static, spike-free platform, stand on it and patrol it; a walker comes exactly when its draw exceeds 0.5 and a drone exactly when its draw does, at most one of each, the walker first |
| Generator.Generate | game.js:457-483 | nothing changes unless the last platform is within 250 of the view's right edge; then exactly one platform is appended, followed by exactly the enemies offered on it (only at score ≥ 50 on a static, spike-free platform), and a pick-up centred 30 above it exactly when the score is ≥ 150 and its draw exceeds 0.8, whatever the platform |
| PlayerAnimation.Choose | game.js:687-699 | each clip is chosen exactly when every condition ahead of it in the priority order fails and its own holds |
| PlayerAnimation.Initial | game.js:102-109 | the player's clips start valid at frame 0 with nothing counted |
| PlayerAnimation.DrawStep | game.js:686-703 | after game over no clip advances; otherwise exactly the chosen clip advances and the others are untouched |
| Game.Initial | game.js:153-168 | the first world satisfies the invariant and is running, with the stored high score, the camera at 0, the player at (100, height − 150) at rest, facing right, score 0, no shield and no platform landed on, only the starting platform, and no enemies, bullets or pick-ups |
| Game.CameraX | game.js:172-175 | the camera keeps the player a third of the way across the view, but never goes left of 0 |
| Game.HitCount | game.js:624-630 | a bullet hits no enemy exactly when its count is 0, and every enemy exactly when its count is the number of enemies |
| Game.HitPairs | game.js:623-631 | no pair overlaps exactly when every bullet hits nothing |
| Game.NoPairsNoHits | game.js:623-631 | no bullet-enemy pair overlaps exactly when no enemy is hit by any bullet |
| Game.ExplodeHit | game.js:623-631 | an enemy explodes exactly when some bullet overlaps it; the others are untouched; the enemy invariant is kept |
| Game.MoveAll | game.js:622 | every bullet takes one tick of flight, and none is lost |
| Game.Survivors | game.js:623-637 | a bullet stays exactly when it hit nothing and is on screen |
| Common.FilterAppend | game.js:633-636 | removing elements keeps the rest in their order: filtering a concatenation is the concatenation of the filtered parts |
| Common.FilterOne | game.js:633-636 | one element stays exactly when the test accepts it |
| Game.Outcomes | game.js:639-640 | each enemy gets its own update, in order, and is removed exactly when its explosion completes |
| Game.KeptOf | game.js:639-640 | the kept enemies come from the updates, none is lost |
| Game.KeptFrom | game.js:639-640 | every enemy kept is the update of some enemy that was not removed |
| Game.ShotsOf | game.js:639-640 | the drone shots come from the updates, none is lost |
| Game.ShotFrom | game.js:639-640 | every shot is the bullet of some enemy update that fired |
| Game.StepEnemies | game.js:639-651 | the player is touched exactly when some enemy, after its update, overlaps the player; the enemies left are exactly the kept updates in order and the shots exactly those fired, in order; the enemy invariant is kept |
| Game.KeptGood | game.js:639-640 | the enemies the updates keep satisfy the enemy invariant when the enemies did |
| Game.MovePlayer | game.js:617-618 | the shield counts down first and the movement then runs with it, so the player, game over and high score are the movement's; a jump raises the jump-start pose and a landing from the air the landing pose; the platforms move, score and high score never fall; a fall below the view ends the game; any other death needs an unshielded player |
| Game.Grow | game.js:619-620 | the level becomes what the generator makes of it with the camera before its update; it grows by at most one platform and keeps the earlier platforms, enemies and pick-ups in place; the camera follows the player |
| Game.Advance | game.js:616-620 | the first half of a tick keeps the invariant, never lowers the score or high score, keeps the starting platform, and ends the game on a fall |
| Game.HitEnemies | game.js:623-631 | every enemy some flown bullet overlaps is explode()d, with its explosion timer kept, and every other enemy is untouched; the score rises by exactly 20 per overlapping bullet-enemy pair, so it is unchanged exactly when nothing is hit; nothing but the score and enemies changes |
| Game.ShootEnemies | game.js:622-637 | every enemy a flown bullet overlaps is explode()d, timer kept, and the others are untouched; the score rises by exactly 20 per overlapping bullet-enemy pair; surviving bullets have flown, hit nothing and are on screen |
| Game.BulletSurvival | game.js:622-637 | a bullet stays exactly when, after its flight, it hits nothing and is on screen |
| Game.OneBulletTwoKills | game.js:623-631 | one bullet overlapping two enemies explodes both, scores 40 and is gone |
| Game.MoveEnemies | game.js:639-651 | the game ends exactly when it was over, or the player is unshielded and some enemy touches it after its update; the enemies become the kept updates in order, and the drones' new shots are appended to the drone bullets |
| Game.EnemyFire | game.js:653-669 | the game ends exactly when it was over, or the player is unshielded and some flown drone bullet overlaps it; a drone bullet stays exactly when, after its flight, it is on screen |
| Game.Collect | game.js:671-676 | a pick-up is taken exactly when the player touches one, and then the shield is raised for 5 seconds; untouched pick-ups stay; nothing else changes |
| Game.Tick | game.js:615-678 | a finished game does not change; a tick keeps the invariant, never lowers the score or high score, moves the platforms and grows the level by at most one; a fall ends the game; with the shield up the game ends exactly on a fall |
| Game.TickCombat | game.js:615-669 | a running tick ends the game exactly when the movement did, or when the player, without a shield, touches an enemy after the enemies' update or is overlapped by a drone bullet after its flight |
| Game.Reset | game.js:595-613 | a reset starts a fresh run with score 0, no shield, no bullets, the pose flags cleared, and a level that is exactly one generator run on the starting platform alone with the old camera and score 0 (so at most one new platform, no enemies, no pick-ups); it keeps the high score, the camera, the player's vertical speed, facing and airborne flag, and every animation clip |
| Game.PressRestart | game.js:488-490 | key R restarts a finished game and does nothing to a running one |
| Game.PressFire | game.js:491-494 | key F adds one bullet at the player's centre heading the way the player faces, and changes nothing else |
| Game.JumpStartEnds | game.js:562-565 | the jump-start timer clears the jump-start pose and sets the jumping pose, and nothing else |
| Game.LandingEnds | game.js:552-555 | the landing timer clears the landing and jumping poses, and nothing else |
| Game.JumpPoseFollows | game.js:562-565 | once the jump-start timer has run, a running game draws the jumping clip |
| Game.PoseAfterLanding | game.js:552-555 | once the landing timer has run and no jump is starting, a running game draws the walking clip when walking is held and the idle clip otherwise |
| Game.DrawPlayer | game.js:686-703 | drawing picks the clip by the priority rule; while the game runs exactly that clip advances one update and every other clip is untouched; only the player's clips change, and nothing changes after game over |
| Scenario.QuietGrow | game.js:457-469 | below score 50 the generator adds platforms only, each starting at x ≥ 330, out of reach of a player at x = 100 |
| Scenario.QuietTick | game.js:615-678 | in a run with no enemies, bullets or pick-ups and the player at x = 100, a tick moves the player as the starting platform alone would |
| Scenario.LandsOnStartPlatform | game.js:498-545 | from the starting world with no key held, the player falls for two ticks and lands on the starting platform on the third, alive, resting on its top with speed 0 and score 10 |

## Left out

- Canvas, images, sprite sheets and window resizing (game.js:1-67): display I/O. The view size is a parameter.
- Sounds and music (game.js:69-77 and the `.play()` calls): side effects only.
- All drawing: the `draw()` methods, `drawScore`, `drawGameOverScreen`, `render` and the blitting in `drawPlayer`. Only the clip choice and clip advance of `drawPlayer` are modelled.
- `console.log` debugging, and the `requestAnimationFrame`/`Promise.all` start-up loop. `Game.Tick` is one call of `update()`.
- Keyboard listeners (game.js:485-496). They are replaced by:
  - the `Movement.Keys` record (left: ArrowLeft or KeyA; right: ArrowRight or KeyD; jump: Space, ArrowUp or KeyW);
  - the handlers `Game.PressRestart` (KeyR) and `Game.PressFire` (KeyF).
- `setTimeout` scheduling of the jump flags (game.js:552-555, 562-565). When the callbacks run depends on the wall clock, so only their bodies are modelled, as `Game.JumpStartEnds` and `Game.LandingEnds`.
- `localStorage` (game.js:13-14, 575): persistence. The stored high score is an integer parameter of `Game.Initial`, and the `parseInt` of the stored string is not modelled.
- `Math.random()`: each draw is a field of `Generator.Draws` in [0, 1). A draw the game skips by short-circuit is ignored.
- The index skipping caused by `splice` inside `forEach` in `update()` (game.js:623-676). The model gives each element its own effect:
  - every bullet-enemy overlap explodes the enemy and scores 20, and a bullet that hit anything or left the screen is gone;
  - every enemy updates once, and one whose explosion completes is removed;
  - every drone bullet is tested once;
  - every touched pick-up is gone, and the shield is raised once.
- Game.MoveEnemies: does not state how far the walk and flight clips advance. JavaScript shares one clip object among all enemies of a kind, so the model advances each kind's clip once per walking enemy of that kind.
- The enemies' explosion clips, `isDying`, `velocityX`, `ShieldPowerUp.isActive` and the enemies' `platform` field: set but never read by the simulation.
- Movement.HandleMovement: the platform `lastPlatform` refers to is its index in the platform list, not an object reference. This is sound because platforms are only ever removed by a reset, which also clears `lastPlatform`.
- Arithmetic is exact (`real`) rather than IEEE double. The fixed steps (0.5, 2, 6, 8, 14) are exact in both, but JavaScript rounds other results: the camera's `player.x - canvas.width / 3`, the random gap `Math.random() * 120 + 80` and rise `Math.random() * 60 - 30`, and the width/4 and width/2 − 30 offsets. Where such a value sits right at a comparison bound (the landing test, the generation trigger, the off-screen test), the model and the game can decide differently.

=== FILE: animation.dfy ===
/** The frame-cycling clip (class Animation in game.js). */
module Animation {

  import opened Common

  /** A source rectangle on a sprite sheet. */
  datatype Frame = Frame(x: int, y: int, width: int, height: int)

  /** A clip: its frames, how many updates each frame stays on show, the
      frame on show and the updates counted towards the next change. */
  datatype Anim = Anim(frames: seq<Frame>, frameRate: int, index: nat, timer: nat)

  /** A clip has frames and shows one of them. */
  predicate Valid(a: Anim)
  {
    0 < |a.frames| && a.index < |a.frames|
  }

  /** The constructor: frame 0 on show, nothing counted yet. */
  function New(frames: seq<Frame>, frameRate: int): (a: Anim)
    requires 0 < |frames|
    ensures Valid(a) && a.frames == frames && a.frameRate == frameRate
    ensures CurrentFrame(a) == frames[0] && a.timer == 0
  {
    Anim(frames, frameRate, 0, 0)
  }

  /** The frame on show. */
  function CurrentFrame(a: Anim): (f: Frame)
    requires Valid(a)
    ensures f in a.frames
  {
    a.frames[a.index]
  }

  /** One update: count it, and when the count reaches the frame rate start
      counting again from 0 and show the next frame, wrapping round. */
  function Update(a: Anim): (r: Anim)
    requires Valid(a)
    ensures Valid(r) && r.frames == a.frames && r.frameRate == a.frameRate
    ensures r.timer == 0 <==> a.timer + 1 >= a.frameRate
    ensures r.timer != 0 ==> r.timer == a.timer + 1 && r.index == a.index
    ensures r.timer == 0 ==> r.index == (a.index + 1) % |a.frames|
    ensures |a.frames| == 1 ==> r.index == 0
    ensures 2 <= |a.frames| ==> (r.index != a.index <==> r.timer == 0)
  {
    if a.timer + 1 >= a.frameRate then
      a.(timer := 0, index := (a.index + 1) % |a.frames|)
    else
      a.(timer := a.timer + 1)
  }

  /** `n` successive updates. */
  function Run(a: Anim, n: nat): (r: Anim)
    requires Valid(a)
    ensures Valid(r) && r.frames == a.frames && r.frameRate == a.frameRate
  {
    if n == 0 then a else Update(Run(a, n - 1))
  }

  /** Within one frame period the clip only counts: the frame does not change. */
  lemma {:induction false} RunWithinPeriod(a: Anim, k: nat)
    requires Valid(a) && a.timer == 0 && k < a.frameRate
    ensures Run(a, k) == a.(timer := k)
  {
    if k > 0 {
      RunWithinPeriod(a, k - 1);
    }
  }

  /** A whole frame period from a fresh count shows the next frame and
      leaves the count at 0. */
  lemma {:induction false} RunOnePeriod(a: Anim)
    requires Valid(a) && a.timer == 0 && 1 <= a.frameRate
    ensures Run(a, a.frameRate) == a.(index := (a.index + 1) % |a.frames|)
  {
    var k: nat := a.frameRate - 1;
    RunWithinPeriod(a, k);
    var b := Run(a, k);
    assert Run(a, k + 1) == Update(b);
    LastCountOfPeriod(b);
  }

  /** The update that completes a period. */
  lemma {:induction false} LastCountOfPeriod(b: Anim)
    requires Valid(b) && b.timer + 1 == b.frameRate
    ensures Update(b) == b.(timer := 0, index := (b.index + 1) % |b.frames|)
  {
  }

  /** Updates compose. */
  lemma {:induction false} RunAdd(a: Anim, m: nat, n: nat)
    requires Valid(a)
    ensures Run(a, m + n) == Run(Run(a, m), n)
  {
    if n > 0 {
      RunAdd(a, m, n - 1);
    }
  }

  /** After `m` whole frame periods from a fresh count the clip has moved on
      `m` frames, wrapping round, and its count is back at 0. */
  lemma {:induction false} RunPeriods(a: Anim, m: nat)
    requires Valid(a) && a.timer == 0 && 1 <= a.frameRate
    ensures Run(a, m * a.frameRate) == a.(index := (a.index + m) % |a.frames|)
  {
    if m > 0 {
      var L := |a.frames|;
      var fr := a.frameRate;
      var n: nat := (m - 1) * fr;
      assert m * fr == n + fr;
      RunPeriods(a, m - 1);
      var b := Run(a, n);
      assert b == a.(index := (a.index + (m - 1)) % L);
      calc {
        Run(a, m * fr);
        == { RunAdd(a, n, fr); }
        Run(b, fr);
        == { RunOnePeriod(b); }
        b.(index := (b.index + 1) % L);
        == { ModSucc(a.index + (m - 1), L); }
        a.(index := (a.index + m) % L);
      }
    }
  }

  /** Moving on one frame from a wrapped index is wrapping the next index. */
  lemma ModSucc(i: nat, L: nat)
    requires 0 < L
    ensures (i % L + 1) % L == (i + 1) % L
  {
    var q := i / L;
    var r := i % L;
    assert i == q * L + r;
    if r + 1 == L {
      DivModUnique(i + 1, q + 1, 0, L);
      DivModUnique(r + 1, 1, 0, L);
    } else {
      DivModUnique(i + 1, q, r + 1, L);
      DivModUnique(r + 1, 0, r + 1, L);
    }
  }

  /** A one-frame clip always shows its only frame. */
  lemma {:induction false} SingleFrameStill(a: Anim, n: nat)
    requires Valid(a) && |a.frames| == 1
    ensures Run(a, n).index == 0 && CurrentFrame(Run(a, n)) == a.frames[0]
  {
    if n > 0 {
      SingleFrameStill(a, n - 1);
    }
  }
}

=== FILE: common.dfy ===
/** Small value types shared by every part of the game model. */
module Common {

  /** An optional value; the game uses `null` for "none". */
  datatype Option<T> = None | Some(value: T)

  /** A travel or facing direction. Every direction the game stores is 1 or -1,
      and turning round multiplies it by -1. */
  type Dir = d: int | d == 1 || d == -1 witness 1

  /** One draw of the host's uniform random source, which lies in [0, 1). */
  type Draw = r: real | 0.0 <= r < 1.0

  /** Turning round. */
  function Reverse(d: Dir): (r: Dir)
    ensures r != d
  {
    if d == 1 then -1 else 1
  }

  function Max(a: int, b: int): (m: int)
    ensures m >= a && m >= b
    ensures m == a || m == b
  {
    if a >= b then a else b
  }

  /** The elements of `s` that `keep` accepts, in their original order. */
  function Filter<T>(s: seq<T>, keep: T -> bool): (r: seq<T>)
    ensures |r| <= |s|
    ensures forall k :: 0 <= k < |r| ==> r[k] in s && keep(r[k])
    ensures forall k :: 0 <= k < |s| && keep(s[k]) ==> s[k] in r
    ensures r == s <==> forall k :: 0 <= k < |s| ==> keep(s[k])
    ensures |r| == |s| <==> r == s
  {
    if |s| == 0 then []
    else (if keep(s[0]) then [s[0]] else []) + Filter(s[1..], keep)
  }

  /** Filtering a concatenation filters each part and keeps them in order:
      with `Filter([x]) == if keep(x) then [x] else []` this fixes the
      result element by element, order included. */
  lemma {:induction false} FilterAppend<T>(s: seq<T>, t: seq<T>, keep: T -> bool)
    ensures Filter(s + t, keep) == Filter(s, keep) + Filter(t, keep)
  {
    if |s| > 0 {
      assert (s + t)[1..] == s[1..] + t;
      FilterAppend(s[1..], t, keep);
    } else {
      assert s + t == t;
    }
  }

  /** Filtering one element keeps it exactly when `keep` accepts it. */
  lemma FilterOne<T>(x: T, keep: T -> bool)
    ensures Filter([x], keep) == if keep(x) then [x] else []
  {
  }

  /** A positive multiple of a positive number is at least that number. */
  lemma MulAtLeast(k: int, n: int)
    requires k >= 1 && n > 0
    ensures k * n >= n
  {
    assert k * n == (k - 1) * n + n;
    assert (k - 1) * n >= 0;
  }

  /** Quotient and remainder are unique. */
  lemma DivModUnique(x: int, q: int, r: int, n: int)
    requires n > 0 && 0 <= r < n && x == q * n + r
    ensures x % n == r && x / n == q
  {
    var q' := x / n;
    var r' := x % n;
    assert x == q' * n + r';
    assert (q - q') * n == r' - r;
    if q > q' {
      MulAtLeast(q - q', n);
    } else if q < q' {
      MulAtLeast(q' - q, n);
    }
  }
}

=== FILE: enemies.dfy ===
/** The two enemy kinds: walkers that patrol a platform and drones that also
    shoot (classes NonShootingEnemy and ShootingEnemy in game.js). */
module Enemies {

  import opened Common
  import opened Geometry
  import Platforms
  import Projectiles

  /** A walker, or a drone with its shot count-down. */
  datatype Kind = Walker | Drone(shootTimer: int)

  /** An enemy patrolling [minX, maxX]. Once exploding it is frozen while
      its explosion timer runs. */
  datatype Enemy = Enemy(
    kind: Kind, x: real, y: real, width: real, height: real,
    direction: Dir, minX: real, maxX: real,
    exploding: bool, explodeTimer: nat)

  /** The per-tick patrol step. */
  const Speed: real := 2.0
  /** Gap kept between the patrol bounds and the platform's ends. */
  const Margin: real := 10.0
  /** Ticks an explosion lasts before the enemy is removed. */
  const ExplodeTicks: nat := 30
  /** Ticks a drone waits between shots. */
  const ShootCooldown: int := 100

  const WalkerWidth: real := 48.0
  const WalkerHeight: real := 64.0
  const DroneWidth: real := 30.0
  const DroneHeight: real := 40.0

  function EnemyBox(e: Enemy): Box
  {
    Box(e.x, e.y, e.width, e.height)
  }

  /** The patrol invariant: the bounds form a proper range, the enemy is
      within one step of it, and once at or past either bound it is heading
      back inside. */
  predicate Patrolling(e: Enemy)
  {
    && e.minX < e.maxX
    && e.minX - Speed < e.x < e.maxX + Speed
    && (e.x >= e.maxX ==> e.direction == -1)
    && (e.x <= e.minX ==> e.direction == 1)
  }

  /** The shared constructor: a quarter of the way along the platform,
      standing on its top, heading right. */
  function Spawn(kind: Kind, width: real, height: real, p: Platforms.Platform): (e: Enemy)
    ensures e.kind == kind && e.width == width && e.height == height
    ensures e.y + e.height == p.y && e.x == p.x + p.width / 4.0
    ensures e.minX == p.x + Margin && e.maxX + e.width + Margin == p.x + p.width
    ensures !e.exploding && e.explodeTimer == 0 && e.direction == 1
  {
    Enemy(kind, p.x + p.width / 4.0, p.y - height, width, height, 1,
          p.x + Margin, p.x + p.width - width - Margin, false, 0)
  }

  /** A walker on platform `p`; on a platform at least 80 wide it starts
      inside its patrol range. */
  function NewWalker(p: Platforms.Platform): (e: Enemy)
    ensures e.kind == Walker && e.width == WalkerWidth && e.height == WalkerHeight
    ensures e.y + e.height == p.y
    ensures p.width >= 80.0 ==> p.x < e.x && e.x + e.width < p.x + p.width
    ensures !e.exploding && e.explodeTimer == 0
    ensures p.width >= 80.0 ==> Patrolling(e)
  {
    Spawn(Walker, WalkerWidth, WalkerHeight, p)
  }

  /** A drone on platform `p`, ready to shoot at once. */
  function NewDrone(p: Platforms.Platform): (e: Enemy)
    ensures e.kind == Drone(0) && e.width == DroneWidth && e.height == DroneHeight
    ensures e.y + e.height == p.y
    ensures p.width >= 80.0 ==> p.x < e.x && e.x + e.width < p.x + p.width
    ensures !e.exploding && e.explodeTimer == 0
    ensures p.width >= 80.0 ==> Patrolling(e)
  {
    Spawn(Drone(0), DroneWidth, DroneHeight, p)
  }

  /** explode(): start exploding. The explosion timer is NOT reset, so a
      second call on an exploding enemy changes nothing. */
  function Explode(e: Enemy): (r: Enemy)
    ensures r.exploding
    ensures EnemyBox(r) == EnemyBox(e) && r.direction == e.direction && r.kind == e.kind
    ensures r.explodeTimer == e.explodeTimer
    ensures e.exploding ==> r == e
    ensures Patrolling(e) ==> Patrolling(r)
  {
    e.(exploding := true)
  }

  /** shoot(): a bullet from the drone's centre, heading right exactly when
      the player is right of the drone. */
  function Shoot(e: Enemy, playerX: real): (b: Projectiles.Bullet)
    ensures b.x == e.x + e.width / 2.0 && b.y == e.y + e.height / 2.0
    ensures b.direction == 1 <==> playerX > e.x
  {
    Projectiles.Bullet(e.x + e.width / 2.0, e.y + e.height / 2.0, if playerX > e.x then 1 else -1)
  }

  /** The patrol step: move, then turn round at or past either bound. */
  function Patrol(e: Enemy): (r: Enemy)
    ensures r.x == e.x + e.direction as real * Speed
    ensures r.direction != e.direction <==> r.x <= e.minX || r.x >= e.maxX
    ensures r == e.(x := r.x, direction := r.direction)
  {
    var x := e.x + e.direction as real * Speed;
    e.(x := x, direction := if x <= e.minX || x >= e.maxX then Reverse(e.direction) else e.direction)
  }

  /** What one update leaves: the enemy gone, or the enemy and any bullet it fired. */
  datatype Outcome = Removed | Kept(enemy: Enemy, shot: Option<Projectiles.Bullet>)

  /** One update (update() of both classes). An exploding enemy only counts
      its explosion and is removed when the count reaches ExplodeTicks. Any
      other enemy patrols; a drone then fires if its count-down is at or
      below 0 (restarting it at ShootCooldown) and otherwise counts down. */
  function Update(e: Enemy, playerX: real): (o: Outcome)
    ensures e.exploding ==> (o.Removed? <==> e.explodeTimer + 1 >= ExplodeTicks)
    ensures e.exploding && o.Kept? ==> o.enemy == e.(explodeTimer := e.explodeTimer + 1) && o.shot.None?
    ensures !e.exploding ==> o.Kept? && !o.enemy.exploding && o.enemy.explodeTimer == e.explodeTimer
    ensures !e.exploding ==> o.enemy.x == e.x + e.direction as real * Speed
    ensures !e.exploding ==> (o.enemy.direction != e.direction <==> o.enemy.x <= e.minX || o.enemy.x >= e.maxX)
    ensures o.Kept? ==> o.enemy.kind.Walker? == e.kind.Walker? && EnemyBox(o.enemy).y == e.y
    ensures o.Kept? ==> o.enemy.minX == e.minX && o.enemy.maxX == e.maxX && o.enemy.width == e.width && o.enemy.height == e.height
    ensures e.kind.Walker? && o.Kept? ==> o.shot.None?
    ensures !e.exploding && e.kind.Drone? ==>
              && (o.shot.Some? <==> e.kind.shootTimer <= 0)
              && (o.shot.Some? ==> o.shot.value == Shoot(o.enemy, playerX) && o.enemy.kind == Drone(ShootCooldown))
              && (o.shot.None? ==> o.enemy.kind == Drone(e.kind.shootTimer - 1))
    ensures Patrolling(e) && o.Kept? ==> Patrolling(o.enemy)
  {
    if e.exploding then
      if e.explodeTimer + 1 >= ExplodeTicks then Removed
      else Kept(e.(explodeTimer := e.explodeTimer + 1), None)
    else
      var moved := Patrol(e);
      match e.kind
      case Walker => Kept(moved, None)
      case Drone(t) =>
        if t <= 0 then Kept(moved.(kind := Drone(ShootCooldown)), Some(Shoot(moved, playerX)))
        else Kept(moved.(kind := Drone(t - 1)), None)
  }

  /** The enemy after `n` updates with the player at `playerX`, or None once removed. */
  function After(e: Enemy, playerX: real, n: nat): Option<Enemy>
  {
    if n == 0 then Some(e)
    else match After(e, playerX, n - 1)
      case None => None
      case Some(e') =>
        match Update(e', playerX)
        case Removed => None
        case Kept(e'', _) => Some(e'')
  }

  /** An exploding enemy stays where it is, facing the same way, for the
      rest of its ExplodeTicks, and the update that completes them removes it. */
  lemma {:induction false} ExplosionLifecycle(e: Enemy, playerX: real, n: nat)
    requires e.exploding && e.explodeTimer < ExplodeTicks
    ensures n < ExplodeTicks - e.explodeTimer ==> After(e, playerX, n) == Some(e.(explodeTimer := e.explodeTimer + n))
    ensures n >= ExplodeTicks - e.explodeTimer ==> After(e, playerX, n) == None
  {
    if n > 0 {
      ExplosionLifecycle(e, playerX, n - 1);
    }
  }

  /** explode() on an enemy that has never exploded: present, frozen, for
      exactly 29 further updates, and removed by the 30th. */
  lemma ExplodedRemovedAfter30(e: Enemy, playerX: real, n: nat)
    requires !e.exploding && e.explodeTimer == 0
    ensures After(Explode(e), playerX, n).Some? <==> n < 30
    ensures n < 30 ==> EnemyBox(After(Explode(e), playerX, n).value) == EnemyBox(e)
    ensures n < 30 ==> After(Explode(e), playerX, n).value.direction == e.direction
  {
    ExplosionLifecycle(Explode(e), playerX, n);
  }

  /** Patrolling is kept for as long as the enemy is present. */
  lemma {:induction false} PatrolPersists(e: Enemy, playerX: real, n: nat)
    requires Patrolling(e)
    ensures After(e, playerX, n).Some? ==> Patrolling(After(e, playerX, n).value)
  {
    if n > 0 {
      PatrolPersists(e, playerX, n - 1);
    }
  }

  /** Bullets fired over successive updates, the player at `playerXs[k]`
      on update k. */
  function Shots(e: Enemy, playerXs: seq<real>): nat
    decreases |playerXs|
  {
    if |playerXs| == 0 then 0
    else match Update(e, playerXs[0])
      case Removed => 0
      case Kept(e', shot) => (if shot.Some? then 1 else 0) + Shots(e', playerXs[1..])
  }

  /** A drone's fire cadence: with its count-down at t in [0, 100] it fires
      on update t + 1 and then on every 101st update, wherever the player
      is; from a fresh drone (t = 0) that is updates 1, 102, 203, ... */
  lemma {:induction false} DroneCadence(e: Enemy, playerXs: seq<real>)
    requires e.kind.Drone? && !e.exploding && 0 <= e.kind.shootTimer <= ShootCooldown
    ensures Shots(e, playerXs) == (|playerXs| + ShootCooldown - e.kind.shootTimer) / (ShootCooldown + 1)
    decreases |playerXs|
  {
    if |playerXs| > 0 {
      var o := Update(e, playerXs[0]);
      DroneCadence(o.enemy, playerXs[1..]);
      var n := |playerXs|;
      var t := e.kind.shootTimer;
      if t == 0 {
        DivModUnique(n + ShootCooldown, (n - 1) / 101 + 1, (n - 1) % 101, 101);
      }
    }
  }

  /** An exploding enemy never fires. */
  lemma {:induction false} ExplodingNeverShoots(e: Enemy, playerXs: seq<real>)
    requires e.exploding
    ensures Shots(e, playerXs) == 0
    decreases |playerXs|
  {
    if |playerXs| > 0 {
      match Update(e, playerXs[0])
      case Removed =>
      case Kept(e', _) => ExplodingNeverShoots(e', playerXs[1..]);
    }
  }
}

=== FILE: game.dfy ===
/** One game session and its per-tick update (update, camera.update,
    resetGame and the key handlers in game.js). */
module Game {

  import opened Common
  import opened Geometry
  import Animation
  import Platforms
  import Shield
  import Projectiles
  import Enemies
  import Movement
  import Generator
  import PlayerAnimation

  /** Points for each bullet-enemy hit. */
  const KillBonus: int := 20

  /** The session. `jumpStarting`, `jumping` and `jumpLanding` are the
      display flags the jump and landing timers clear; `walkClip` and
      `flyClip` are the walk clip all walkers share and the flight clip all
      drones share. */
  datatype World = World(
    player: Movement.Player, gameOver: bool, highScore: int, cameraX: real,
    platforms: seq<Platforms.Platform>, enemies: seq<Enemies.Enemy>,
    bullets: seq<Projectiles.Bullet>, enemyBullets: seq<Projectiles.Bullet>,
    powerUps: seq<Projectiles.PowerUp>,
    jumpStarting: bool, jumping: bool, jumpLanding: bool,
    walkClip: Animation.Anim, flyClip: Animation.Anim, playerClips: PlayerAnimation.Clips)

  /** The starting platform, first in the sequence for the whole session. */
  predicate IsStartPlatform(q: Platforms.Platform)
  {
    q.x == 50.0 && q.width == 200.0 && q.height == 20.0 && !q.isMoving && q.spikes.NoSpikes?
  }

  /** An enemy as the game keeps it: patrolling, with its explosion timer
      running only while it explodes and a drone count-down in [0, 100]. */
  predicate GoodEnemy(e: Enemies.Enemy)
  {
    && Enemies.Patrolling(e)
    && e.explodeTimer < Enemies.ExplodeTicks
    && (!e.exploding ==> e.explodeTimer == 0)
    && (e.kind.Drone? ==> 0 <= e.kind.shootTimer <= Enemies.ShootCooldown)
  }

  /** The session invariant. */
  predicate Inv(w: World)
  {
    && |w.platforms| > 0
    && IsStartPlatform(w.platforms[0])
    && (w.player.lastPlatform.Some? ==> w.player.lastPlatform.value < |w.platforms|)
    && (forall k :: 0 <= k < |w.platforms| ==> Platforms.Oscillating(w.platforms[k]))
    && (forall k :: 0 <= k < |w.enemies| ==> GoodEnemy(w.enemies[k]))
    && Animation.Valid(w.walkClip) && Animation.Valid(w.flyClip)
    && PlayerAnimation.ValidClips(w.playerClips)
  }

  const WalkerClip: Animation.Anim :=
    Animation.New([Animation.Frame(0, 0, 48, 64), Animation.Frame(48, 0, 48, 64), Animation.Frame(96, 0, 53, 64)], 10)
  const DroneClip: Animation.Anim :=
    Animation.New([Animation.Frame(0, 0, 30, 40), Animation.Frame(30, 0, 28, 40), Animation.Frame(60, 0, 30, 40)], 10)

  /** The player where a session starts, in a view `viewHeight` high. */
  function StartPlayer(p: Movement.Player, viewHeight: real): Movement.Player
  {
    p.(x := 100.0, y := viewHeight - 150.0, score := 0, lastPlatform := None, shield := Shield.Off)
  }

  /** The session as the page loads it, with the stored high score. */
  function Initial(viewHeight: real, storedHighScore: int): (w: World)
    ensures Inv(w) && !w.gameOver && |w.platforms| == 1
    ensures w.player.score == 0 && w.player.x == 100.0 && w.player.y == viewHeight - 150.0
    ensures w.platforms[0].y == viewHeight - 100.0
    ensures w.highScore == storedHighScore && w.cameraX == 0.0
    ensures w.player.vy == 0.0 && w.player.direction == 1 && !w.player.isJumping
    ensures w.player.lastPlatform == None && w.player.shield == Shield.Off
    ensures w.enemies == [] && w.bullets == [] && w.enemyBullets == [] && w.powerUps == []
  {
    World(
      Movement.Player(100.0, viewHeight - 150.0, 0.0, 1, false, 0, None, Shield.Off),
      false, storedHighScore, 0.0,
      [Platforms.New(50.0, viewHeight - 100.0, 200.0, 20.0, false, false, 0.0)],
      [], [], [], [], false, false, false,
      WalkerClip, DroneClip, PlayerAnimation.Initial())
  }

  /** camera.update: the player sits a third of the way across the view,
      but the camera never goes left of 0. */
  function CameraX(playerX: real, viewWidth: real): (c: real)
    ensures c >= 0.0 && c >= playerX - viewWidth / 3.0
    ensures c == 0.0 || c == playerX - viewWidth / 3.0
  {
    var c := playerX - viewWidth / 3.0;
    if c < 0.0 then 0.0 else c
  }

  /** The number of enemies bullet `b` overlaps. */
  function HitCount(b: Projectiles.Bullet, es: seq<Enemies.Enemy>): (n: nat)
    ensures n <= |es|
    ensures n == 0 <==> forall k :: 0 <= k < |es| ==> !Projectiles.HitEnemy(b, Enemies.EnemyBox(es[k]))
    ensures n == |es| <==> forall k :: 0 <= k < |es| ==> Projectiles.HitEnemy(b, Enemies.EnemyBox(es[k]))
  {
    if |es| == 0 then 0
    else (if Projectiles.HitEnemy(b, Enemies.EnemyBox(es[0])) then 1 else 0) + HitCount(b, es[1..])
  }

  /** The number of bullet-enemy pairs that overlap. */
  function HitPairs(bs: seq<Projectiles.Bullet>, es: seq<Enemies.Enemy>): (n: nat)
    ensures n == 0 <==> forall k :: 0 <= k < |bs| ==> HitCount(bs[k], es) == 0
  {
    if |bs| == 0 then 0 else HitCount(bs[0], es) + HitPairs(bs[1..], es)
  }

  /** Some bullet overlaps `e`. */
  predicate HitByAny(bs: seq<Projectiles.Bullet>, e: Enemies.Enemy)
  {
    exists k :: 0 <= k < |bs| && Projectiles.HitEnemy(bs[k], Enemies.EnemyBox(e))
  }

  /** Every enemy some bullet overlaps explodes; the others are untouched. */
  function ExplodeHit(bs: seq<Projectiles.Bullet>, es: seq<Enemies.Enemy>): (r: seq<Enemies.Enemy>)
    ensures |r| == |es|
    ensures forall k :: 0 <= k < |es| ==> r[k] == if HitByAny(bs, es[k]) then Enemies.Explode(es[k]) else es[k]
    ensures forall k :: 0 <= k < |es| ==> (r[k].exploding <==> es[k].exploding || HitByAny(bs, es[k]))
    ensures forall k :: 0 <= k < |es| ==> GoodEnemy(es[k]) ==> GoodEnemy(r[k])
  {
    seq(|es|, k requires 0 <= k < |es| => if HitByAny(bs, es[k]) then Enemies.Explode(es[k]) else es[k])
  }

  /** No bullet-enemy pair overlaps exactly when no enemy is hit by any bullet. */
  lemma NoPairsNoHits(bs: seq<Projectiles.Bullet>, es: seq<Enemies.Enemy>)
    ensures HitPairs(bs, es) == 0 <==> forall k :: 0 <= k < |es| ==> !HitByAny(bs, es[k])
  {
    if HitPairs(bs, es) != 0 {
      var j :| 0 <= j < |bs| && HitCount(bs[j], es) != 0;
      var k :| 0 <= k < |es| && Projectiles.HitEnemy(bs[j], Enemies.EnemyBox(es[k]));
      assert HitByAny(bs, es[k]);
    }
  }

  /** The player's bullets that stay after the hit test: those that hit no
      enemy and are still on screen. */
  function Survivors(flown: seq<Projectiles.Bullet>, es: seq<Enemies.Enemy>, cameraX: real, viewWidth: real): (r: seq<Projectiles.Bullet>)
    ensures |r| <= |flown|
    ensures forall k :: 0 <= k < |r| ==>
              r[k] in flown && HitCount(r[k], es) == 0 && !Projectiles.OffScreen(r[k], cameraX, viewWidth)
    ensures forall k :: 0 <= k < |flown| && HitCount(flown[k], es) == 0 && !Projectiles.OffScreen(flown[k], cameraX, viewWidth) ==>
              flown[k] in r
  {
    Filter(flown, b => HitCount(b, es) == 0 && !Projectiles.OffScreen(b, cameraX, viewWidth))
  }

  /** Moves every bullet one tick. */
  function MoveAll(bs: seq<Projectiles.Bullet>): (r: seq<Projectiles.Bullet>)
    ensures |r| == |bs|
    ensures forall k :: 0 <= k < |bs| ==> r[k] == Projectiles.Update(bs[k])
  {
    seq(|bs|, k requires 0 <= k < |bs| => Projectiles.Update(bs[k]))
  }

  /** The box an enemy has after its update; a removed enemy is tested
      where it stood, which is where an exploding enemy stays. */
  function AfterBox(e: Enemies.Enemy, playerX: real): Box
  {
    match Enemies.Update(e, playerX)
    case Removed => Enemies.EnemyBox(e)
    case Kept(e', _) => Enemies.EnemyBox(e')
  }

  /** The number of enemies that walk this tick (none exploding) of the
      given kind: each one advances its kind's shared clip. */
  function Walking(es: seq<Enemies.Enemy>, walkers: bool): (n: nat)
    ensures n <= |es|
  {
    if |es| == 0 then 0
    else (if !es[0].exploding && es[0].kind.Walker? == walkers then 1 else 0) + Walking(es[1..], walkers)
  }

  /** Every enemy's update, in order, with the player at `playerX`. */
  function Outcomes(es: seq<Enemies.Enemy>, playerX: real): (os: seq<Enemies.Outcome>)
    ensures |os| == |es|
    ensures forall k :: 0 <= k < |es| ==> os[k] == Enemies.Update(es[k], playerX)
    // only a finished explosion removes an enemy
    ensures forall k :: 0 <= k < |es| ==>
              (os[k].Removed? <==> es[k].exploding && es[k].explodeTimer + 1 >= Enemies.ExplodeTicks)
  {
    seq(|es|, k requires 0 <= k < |es| => Enemies.Update(es[k], playerX))
  }

  /** The enemies the outcomes keep, in order. */
  function KeptOf(os: seq<Enemies.Outcome>): (r: seq<Enemies.Enemy>)
    ensures |r| <= |os|
    ensures forall k :: 0 <= k < |os| && os[k].Kept? ==> os[k].enemy in r
  {
    if |os| == 0 then []
    else (if os[0].Kept? then [os[0].enemy] else []) + KeptOf(os[1..])
  }

  /** Every kept enemy is the enemy of some outcome that keeps it. */
  lemma {:induction false} KeptFrom(os: seq<Enemies.Outcome>, j: nat)
    requires j < |KeptOf(os)|
    ensures exists k :: 0 <= k < |os| && os[k].Kept? && os[k].enemy == KeptOf(os)[j]
  {
    if os[0].Kept? && j == 0 {
      assert os[0].enemy == KeptOf(os)[0];
    } else {
      var j' := if os[0].Kept? then j - 1 else j;
      assert KeptOf(os)[j] == KeptOf(os[1..])[j'];
      KeptFrom(os[1..], j');
      var k :| 0 <= k < |os[1..]| && os[1..][k].Kept? && os[1..][k].enemy == KeptOf(os[1..])[j'];
      assert os[k + 1] == os[1..][k];
    }
  }

  /** The bullets the outcomes fire, in order. */
  function ShotsOf(os: seq<Enemies.Outcome>): (r: seq<Projectiles.Bullet>)
    ensures |r| <= |os|
    ensures forall k :: 0 <= k < |os| && os[k].Kept? && os[k].shot.Some? ==> os[k].shot.value in r
  {
    if |os| == 0 then []
    else (if os[0].Kept? && os[0].shot.Some? then [os[0].shot.value] else []) + ShotsOf(os[1..])
  }

  /** Every shot is the bullet some outcome fired. */
  lemma {:induction false} ShotFrom(os: seq<Enemies.Outcome>, j: nat)
    requires j < |ShotsOf(os)|
    ensures exists k :: 0 <= k < |os| && os[k].Kept? && os[k].shot == Some(ShotsOf(os)[j])
  {
    var fired := os[0].Kept? && os[0].shot.Some?;
    if fired && j == 0 {
      assert os[0].shot == Some(ShotsOf(os)[0]);
    } else {
      var j' := if fired then j - 1 else j;
      assert ShotsOf(os)[j] == ShotsOf(os[1..])[j'];
      ShotFrom(os[1..], j');
      var k :| 0 <= k < |os[1..]| && os[1..][k].Kept? && os[1..][k].shot == Some(ShotsOf(os[1..])[j']);
      assert os[k + 1] == os[1..][k];
    }
  }

  /** The update outcomes of a list without its head are the tail of its outcomes. */
  lemma OutcomesTail(es: seq<Enemies.Enemy>, playerX: real)
    requires |es| > 0
    ensures Outcomes(es[1..], playerX) == Outcomes(es, playerX)[1..]
  {
  }

  /** The enemies the updates keep are good when the enemies were. */
  lemma KeptGood(es: seq<Enemies.Enemy>, playerX: real)
    ensures (forall k :: 0 <= k < |es| ==> GoodEnemy(es[k])) ==>
              forall j :: 0 <= j < |KeptOf(Outcomes(es, playerX))| ==> GoodEnemy(KeptOf(Outcomes(es, playerX))[j])
  {
    var os := Outcomes(es, playerX);
    forall j | 0 <= j < |KeptOf(os)| && (forall k :: 0 <= k < |es| ==> GoodEnemy(es[k]))
      ensures GoodEnemy(KeptOf(os)[j])
    {
      KeptFrom(os, j);
      var k :| 0 <= k < |os| && os[k].Kept? && os[k].enemy == KeptOf(os)[j];
      assert GoodEnemy(es[k]) && os[k] == Enemies.Update(es[k], playerX);
    }
  }

  /** What the enemy pass leaves: surviving enemies, bullets fired, and
      whether any enemy touched the player. */
  datatype EnemyPass = EnemyPass(enemies: seq<Enemies.Enemy>, shots: seq<Projectiles.Bullet>, contact: bool)

  /** The survivors and shots of the enemies' updates: no more than the
      enemies, every kept update among the survivors, and good survivors of
      good enemies. */
  lemma PassFacts(es: seq<Enemies.Enemy>, playerX: real, kept: seq<Enemies.Enemy>, shots: seq<Projectiles.Bullet>)
    requires kept == KeptOf(Outcomes(es, playerX)) && shots == ShotsOf(Outcomes(es, playerX))
    ensures |kept| <= |es| && |shots| <= |es|
    ensures forall k :: 0 <= k < |es| && Enemies.Update(es[k], playerX).Kept? ==>
              Enemies.Update(es[k], playerX).enemy in kept
    ensures (forall k :: 0 <= k < |es| ==> GoodEnemy(es[k])) ==>
              forall k :: 0 <= k < |kept| ==> GoodEnemy(kept[k])
  {
    KeptGood(es, playerX);
  }

  /** Every enemy updates in order and is tested against the player. */
  function StepEnemies(es: seq<Enemies.Enemy>, player: Box, playerX: real): (r: EnemyPass)
    decreases |es|
    ensures |r.enemies| <= |es| && |r.shots| <= |es|
    ensures r.contact <==> exists k :: 0 <= k < |es| && Overlaps(player, AfterBox(es[k], playerX))
    ensures forall k :: 0 <= k < |es| && Enemies.Update(es[k], playerX).Kept? ==>
              Enemies.Update(es[k], playerX).enemy in r.enemies
    ensures (forall k :: 0 <= k < |es| ==> GoodEnemy(es[k])) ==>
              forall k :: 0 <= k < |r.enemies| ==> GoodEnemy(r.enemies[k])
    // the survivors and the shots are those of the enemies' updates taken one by one, in order
    ensures r.enemies == KeptOf(Outcomes(es, playerX)) && r.shots == ShotsOf(Outcomes(es, playerX))
  {
    if |es| == 0 then EnemyPass([], [], false)
    else
      OutcomesTail(es, playerX);
      var e := es[0];
      var o := Enemies.Update(e, playerX);
      var rest := StepEnemies(es[1..], player, playerX);
      var kept := (if o.Kept? then [o.enemy] else []) + rest.enemies;
      var shots := (if o.Kept? && o.shot.Some? then [o.shot.value] else []) + rest.shots;
      PassFacts(es, playerX, kept, shots);
      EnemyPass(kept, shots, Overlaps(player, AfterBox(e, playerX)) || rest.contact)
  }

  /** The shield counts down and the player moves and meets the platforms. */
  function MovePlayer(w: World, keys: Movement.Keys, viewHeight: real): (r: World)
    requires Inv(w) && !w.gameOver
    ensures Inv(r)
    ensures r == w.(player := r.player, gameOver := r.gameOver, highScore := r.highScore, platforms := r.platforms,
                    jumpStarting := r.jumpStarting, jumpLanding := r.jumpLanding)
    ensures r.player.score >= w.player.score && r.highScore >= w.highScore
    ensures |r.platforms| == |w.platforms|
    ensures forall k :: 0 <= k < |w.platforms| ==> r.platforms[k] == Platforms.Update(w.platforms[k])
    ensures r.player.shield == Shield.Update(w.player.shield)
    ensures r.player.y > viewHeight ==> r.gameOver
    ensures r.gameOver ==> r.player.y > viewHeight || !r.player.shield.active
    // the player moves with its shield already counted down
    ensures var m := Movement.HandleMovement(w.player.(shield := Shield.Update(w.player.shield)), w.platforms, keys, viewHeight, w.highScore);
            && r.player == m.player && r.gameOver == m.died && r.highScore == m.highScore
            // a jump raises the jump-start pose, a landing from the air the landing pose
            && r.jumpStarting == (w.jumpStarting || m.jumped)
            && r.jumpLanding == (w.jumpLanding || m.landedFromAir)
  {
    var p0 := w.player.(shield := Shield.Update(w.player.shield));
    var m := Movement.HandleMovement(p0, w.platforms, keys, viewHeight, w.highScore);
    w.(player := m.player, gameOver := m.died, highScore := m.highScore, platforms := m.platforms,
       jumpStarting := w.jumpStarting || m.jumped, jumpLanding := w.jumpLanding || m.landedFromAir)
  }

  /** The level grows ahead of the camera, and the camera follows the player. */
  function Grow(w: World, viewWidth: real, viewHeight: real, d: Generator.Draws): (r: World)
    requires Inv(w)
    ensures Inv(r)
    ensures r == w.(cameraX := r.cameraX, platforms := r.platforms, enemies := r.enemies, powerUps := r.powerUps)
    ensures |w.platforms| <= |r.platforms| <= |w.platforms| + 1
    ensures forall k :: 0 <= k < |w.platforms| ==> r.platforms[k] == w.platforms[k]
    ensures r.cameraX == CameraX(w.player.x, viewWidth)
    ensures |w.enemies| <= |r.enemies| && r.enemies[..|w.enemies|] == w.enemies
    ensures |w.powerUps| <= |r.powerUps| && r.powerUps[..|w.powerUps|] == w.powerUps
    // the generator looks at the camera as it stood before this tick's update
    ensures Generator.Level(r.platforms, r.enemies, r.powerUps)
            == Generator.Generate(Generator.Level(w.platforms, w.enemies, w.powerUps),
                                  w.cameraX, viewWidth, viewHeight, w.player.score, d)
  {
    var lv := Generator.Generate(Generator.Level(w.platforms, w.enemies, w.powerUps),
                                 w.cameraX, viewWidth, viewHeight, w.player.score, d);
    w.(cameraX := CameraX(w.player.x, viewWidth),
       platforms := lv.platforms, enemies := lv.enemies, powerUps := lv.powerUps)
  }

  /** The first half of a tick: the shield counts down, the player moves
      and meets the platforms, the level grows and the camera follows. */
  function Advance(w: World, keys: Movement.Keys, viewWidth: real, viewHeight: real, d: Generator.Draws): (r: World)
    requires Inv(w) && !w.gameOver
    ensures Inv(r)
    ensures r.player.score >= w.player.score && r.highScore >= w.highScore
    ensures |w.platforms| <= |r.platforms| <= |w.platforms| + 1 && r.platforms[0] == w.platforms[0]
    ensures forall k :: 0 <= k < |w.platforms| ==> r.platforms[k] == Platforms.Update(w.platforms[k])
    ensures r.player.shield == Shield.Update(w.player.shield)
    ensures r.player.y > viewHeight ==> r.gameOver
    ensures r.gameOver ==> r.player.y > viewHeight || !r.player.shield.active
    ensures r.bullets == w.bullets && r.enemyBullets == w.enemyBullets
  {
    Grow(MovePlayer(w, keys, viewHeight), viewWidth, viewHeight, d)
  }

  /** The hits of the flown bullets `flown`: every bullet-enemy overlap
      explodes the enemy and scores KillBonus. */
  function HitEnemies(w: World, flown: seq<Projectiles.Bullet>): (r: World)
    requires Inv(w)
    ensures Inv(r)
    ensures r.player == w.player.(score := r.player.score) && r.player.score >= w.player.score
    ensures r == w.(player := r.player, enemies := r.enemies)
    ensures |r.enemies| == |w.enemies|
    ensures forall k :: 0 <= k < |w.enemies| ==>
              (r.enemies[k].exploding <==> w.enemies[k].exploding || HitByAny(flown, w.enemies[k]))
    ensures r.player.score == w.player.score <==> forall k :: 0 <= k < |w.enemies| ==> !HitByAny(flown, w.enemies[k])
    // every overlapping bullet-enemy pair pays KillBonus
    ensures r.player.score == w.player.score + KillBonus * HitPairs(flown, w.enemies)
    // hit enemies are explode()d, timer and all as they were; the rest are untouched
    ensures r.enemies == ExplodeHit(flown, w.enemies)
  {
    NoPairsNoHits(flown, w.enemies);
    w.(player := w.player.(score := w.player.score + KillBonus * HitPairs(flown, w.enemies)),
       enemies := ExplodeHit(flown, w.enemies))
  }

  /** The player's bullets fly; every bullet-enemy overlap explodes the
      enemy and scores KillBonus; a bullet that hit anything or is off
      screen is gone. */
  function ShootEnemies(w: World, viewWidth: real): (r: World)
    requires Inv(w)
    ensures Inv(r)
    ensures r.player == w.player.(score := r.player.score) && r.player.score >= w.player.score
    ensures r == w.(player := r.player, bullets := r.bullets, enemies := r.enemies)
    ensures |r.enemies| == |w.enemies| && |r.bullets| <= |w.bullets|
    // an enemy explodes exactly when a bullet, after its flight, overlaps it
    ensures forall k :: 0 <= k < |w.enemies| ==>
              (r.enemies[k].exploding <==> w.enemies[k].exploding || HitByAny(MoveAll(w.bullets), w.enemies[k]))
    // every hit pays, so the score is unchanged exactly when no bullet hits anything
    ensures r.player.score == w.player.score <==> forall k :: 0 <= k < |w.enemies| ==> !HitByAny(MoveAll(w.bullets), w.enemies[k])
    ensures r.player.score == w.player.score + KillBonus * HitPairs(MoveAll(w.bullets), w.enemies)
    ensures r.enemies == ExplodeHit(MoveAll(w.bullets), w.enemies)
    // a surviving bullet has flown, hits nothing and is on screen
    ensures forall k :: 0 <= k < |r.bullets| ==>
              && r.bullets[k] in MoveAll(w.bullets) && HitCount(r.bullets[k], w.enemies) == 0
              && !Projectiles.OffScreen(r.bullets[k], w.cameraX, viewWidth)
  {
    var flown := MoveAll(w.bullets);
    HitEnemies(w, flown).(bullets := Survivors(flown, w.enemies, w.cameraX, viewWidth))
  }

  /** A player's bullet survives the shooting phase exactly when, after its
      flight, it hits no enemy and is still on screen. */
  lemma BulletSurvival(w: World, viewWidth: real)
    requires Inv(w)
    ensures var r := ShootEnemies(w, viewWidth);
            var flown := MoveAll(w.bullets);
            && (forall k :: 0 <= k < |r.bullets| ==>
                  r.bullets[k] in flown && HitCount(r.bullets[k], w.enemies) == 0
                  && !Projectiles.OffScreen(r.bullets[k], w.cameraX, viewWidth))
            && (forall k :: 0 <= k < |flown| && HitCount(flown[k], w.enemies) == 0
                              && !Projectiles.OffScreen(flown[k], w.cameraX, viewWidth) ==>
                  flown[k] in r.bullets)
  {
  }

  /** One bullet that overlaps two enemies after its flight explodes both,
      scores KillBonus for each, and is gone. */
  lemma {:induction false} OneBulletTwoKills(w: World, viewWidth: real)
    requires Inv(w) && |w.bullets| == 1 && |w.enemies| == 2
    requires forall k :: 0 <= k < 2 ==>
               Projectiles.HitEnemy(Projectiles.Update(w.bullets[0]), Enemies.EnemyBox(w.enemies[k]))
    ensures var r := ShootEnemies(w, viewWidth);
            && r.player.score == w.player.score + 2 * KillBonus
            && r.enemies[0].exploding && r.enemies[1].exploding
            && r.bullets == []
  {
    var flown := MoveAll(w.bullets);
    assert flown == [Projectiles.Update(w.bullets[0])];
    assert HitCount(flown[0], w.enemies) == 2;
    assert HitPairs(flown, w.enemies) == 2 by {
      assert flown[1..] == [];
    }
    assert HitByAny(flown, w.enemies[0]) && HitByAny(flown, w.enemies[1]);
  }

  /** Some enemy, after its update, overlaps the player. */
  predicate TouchedByEnemy(w: World)
  {
    exists k :: 0 <= k < |w.enemies| && Overlaps(Movement.PlayerBox(w.player), AfterBox(w.enemies[k], w.player.x))
  }

  /** Some drone bullet, after its flight, overlaps the player. */
  predicate ShotByDrone(w: World)
  {
    exists k :: 0 <= k < |w.enemyBullets| &&
      Overlaps(Projectiles.BulletBox(Projectiles.Update(w.enemyBullets[k])), Movement.PlayerBox(w.player))
  }

  /** The enemies update, fire and touch the player; the shared walk and
      flight clips advance once per walking enemy of their kind. */
  function MoveEnemies(w: World): (r: World)
    requires Inv(w)
    ensures Inv(r)
    ensures r == w.(enemies := r.enemies, enemyBullets := r.enemyBullets, gameOver := r.gameOver,
                    walkClip := r.walkClip, flyClip := r.flyClip)
    ensures r.gameOver <==> w.gameOver || (!w.player.shield.active && TouchedByEnemy(w))
    ensures |r.enemies| <= |w.enemies|
    ensures r.enemies == KeptOf(Outcomes(w.enemies, w.player.x))
    ensures r.enemyBullets == w.enemyBullets + ShotsOf(Outcomes(w.enemies, w.player.x))
  {
    var pass := StepEnemies(w.enemies, Movement.PlayerBox(w.player), w.player.x);
    w.(enemies := pass.enemies, enemyBullets := w.enemyBullets + pass.shots,
       gameOver := w.gameOver || (!w.player.shield.active && pass.contact),
       walkClip := Animation.Run(w.walkClip, Walking(w.enemies, true)),
       flyClip := Animation.Run(w.flyClip, Walking(w.enemies, false)))
  }

  /** The drones' bullets fly, may hit the player, and leave the screen. */
  function EnemyFire(w: World, viewWidth: real): (r: World)
    requires Inv(w)
    ensures Inv(r)
    ensures r == w.(enemyBullets := r.enemyBullets, gameOver := r.gameOver)
    ensures r.gameOver <==> w.gameOver || (!w.player.shield.active && ShotByDrone(w))
    ensures forall k :: 0 <= k < |r.enemyBullets| ==>
              r.enemyBullets[k] in MoveAll(w.enemyBullets) && !Projectiles.OffScreen(r.enemyBullets[k], w.cameraX, viewWidth)
    ensures forall k :: 0 <= k < |w.enemyBullets| && !Projectiles.OffScreen(MoveAll(w.enemyBullets)[k], w.cameraX, viewWidth) ==>
              MoveAll(w.enemyBullets)[k] in r.enemyBullets
    ensures |r.enemyBullets| <= |w.enemyBullets|
  {
    var shots := MoveAll(w.enemyBullets);
    var box := Movement.PlayerBox(w.player);
    var hit := exists k :: 0 <= k < |shots| && Overlaps(Projectiles.BulletBox(shots[k]), box);
    w.(enemyBullets := Filter(shots, b => !Projectiles.OffScreen(b, w.cameraX, viewWidth)),
       gameOver := w.gameOver || (!w.player.shield.active && hit))
  }

  /** Pick-ups the player touches raise the shield and are gone. */
  function Collect(w: World): (r: World)
    requires Inv(w)
    ensures Inv(r)
    ensures r == w.(powerUps := r.powerUps, player := r.player)
    ensures r.player == w.player.(shield := r.player.shield)
    ensures |r.powerUps| < |w.powerUps| <==>
              exists k :: 0 <= k < |w.powerUps| && Projectiles.IsCollected(w.powerUps[k], Movement.PlayerBox(w.player))
    ensures |r.powerUps| < |w.powerUps| ==> r.player.shield == Shield.Activate(Projectiles.PowerUpSeconds)
    ensures |r.powerUps| == |w.powerUps| ==> r == w
    ensures forall k :: 0 <= k < |r.powerUps| ==>
              r.powerUps[k] in w.powerUps && !Projectiles.IsCollected(r.powerUps[k], Movement.PlayerBox(w.player))
    ensures forall k :: 0 <= k < |w.powerUps| && !Projectiles.IsCollected(w.powerUps[k], Movement.PlayerBox(w.player)) ==>
              w.powerUps[k] in r.powerUps
  {
    var box := Movement.PlayerBox(w.player);
    var kept := Filter(w.powerUps, u => !Projectiles.IsCollected(u, box));
    if |kept| < |w.powerUps| then
      w.(powerUps := kept, player := w.player.(shield := Shield.Activate(Projectiles.PowerUpSeconds)))
    else
      w
  }

  /** update(): one tick of a running game in a view `viewWidth` by
      `viewHeight`; a finished game does not change. */
  function Tick(w: World, keys: Movement.Keys, viewWidth: real, viewHeight: real, d: Generator.Draws): (r: World)
    requires Inv(w)
    ensures Inv(r)
    ensures w.gameOver ==> r == w
    ensures r.player.score >= w.player.score && r.highScore >= w.highScore
    ensures |w.platforms| <= |r.platforms| <= |w.platforms| + 1 && r.platforms[0] == w.platforms[0]
    ensures !w.gameOver ==> forall k :: 0 <= k < |w.platforms| ==> r.platforms[k] == Platforms.Update(w.platforms[k])
    ensures !w.gameOver && r.player.y > viewHeight ==> r.gameOver
    ensures !w.gameOver && Shield.Update(w.player.shield).active ==> (r.gameOver <==> r.player.y > viewHeight)
  {
    if w.gameOver then w
    else Collect(EnemyFire(MoveEnemies(ShootEnemies(Advance(w, keys, viewWidth, viewHeight, d), viewWidth)), viewWidth))
  }

  /** A running tick ends the game exactly when the movement did, or when
      the player, without a shield, meets an enemy after the enemies' update
      or a drone bullet after its flight. */
  lemma TickCombat(w: World, keys: Movement.Keys, viewWidth: real, viewHeight: real, d: Generator.Draws)
    requires Inv(w) && !w.gameOver
    ensures var a := Advance(w, keys, viewWidth, viewHeight, d);
            var s := ShootEnemies(a, viewWidth);
            var shielded := Shield.Update(w.player.shield).active;
            Tick(w, keys, viewWidth, viewHeight, d).gameOver <==>
              a.gameOver || (!shielded && (TouchedByEnemy(s) || ShotByDrone(MoveEnemies(s))))
  {
  }

  /** resetGame(): a fresh run in the same session. The high score, the
      starting platform, the camera, the player's vertical speed, facing and
      airborne flag, and the clips are kept; everything else starts over,
      and the generator runs once (with score 0, so it adds no enemy and no
      pick-up). */
  function Reset(w: World, viewWidth: real, viewHeight: real, d: Generator.Draws): (r: World)
    requires Inv(w)
    ensures Inv(r) && !r.gameOver
    ensures r.player.score == 0 && r.player.lastPlatform == None && r.player.shield == Shield.Off
    ensures r.player.x == 100.0 && r.player.y == viewHeight - 150.0
    ensures r.player.vy == w.player.vy && r.player.direction == w.player.direction
    ensures 1 <= |r.platforms| <= 2 && r.platforms[0] == w.platforms[0]
    ensures r.enemies == [] && r.bullets == [] && r.enemyBullets == [] && r.powerUps == []
    ensures r.highScore == w.highScore && r.cameraX == w.cameraX
    ensures !r.jumpStarting && !r.jumping && !r.jumpLanding
    ensures r.player.isJumping == w.player.isJumping
    ensures r.walkClip == w.walkClip && r.flyClip == w.flyClip && r.playerClips == w.playerClips
    // the generator runs once, on the starting platform alone, with the old camera and score 0
    ensures Generator.Level(r.platforms, r.enemies, r.powerUps)
            == Generator.Generate(Generator.Level(w.platforms[..1], [], []), w.cameraX, viewWidth, viewHeight, 0, d)
  {
    var lv := Generator.Generate(Generator.Level(w.platforms[..1], [], []), w.cameraX, viewWidth, viewHeight, 0, d);
    w.(gameOver := false, jumpStarting := false, jumping := false, jumpLanding := false,
       player := StartPlayer(w.player, viewHeight),
       platforms := lv.platforms, enemies := lv.enemies, bullets := [], enemyBullets := [], powerUps := lv.powerUps)
  }

  /** The KeyR handler: restart only a finished game. */
  function PressRestart(w: World, viewWidth: real, viewHeight: real, d: Generator.Draws): (r: World)
    requires Inv(w)
    ensures Inv(r) && !r.gameOver
    ensures !w.gameOver ==> r == w
    ensures w.gameOver ==> r.player.score == 0 && r.highScore == w.highScore
  {
    if w.gameOver then Reset(w, viewWidth, viewHeight, d) else w
  }

  /** The KeyF handler: a bullet from the player's centre in the direction
      the player faces. It fires whether or not the game is over. */
  function PressFire(w: World): (r: World)
    ensures r == w.(bullets := r.bullets)
    ensures |r.bullets| == |w.bullets| + 1 && r.bullets[..|w.bullets|] == w.bullets
    ensures var b := r.bullets[|w.bullets|];
            b.direction == w.player.direction
            && b.x == w.player.x + Movement.PlayerWidth / 2.0
            && b.y == w.player.y + Movement.PlayerHeight / 2.0
  {
    var p := w.player;
    w.(bullets := w.bullets + [Projectiles.Bullet(p.x + Movement.PlayerWidth / 2.0, p.y + Movement.PlayerHeight / 2.0, p.direction)])
  }

  /** The body of the timer a jump schedules: the jump-start pose ends and
      the jumping pose begins. */
  function JumpStartEnds(w: World): (r: World)
    ensures !r.jumpStarting && r.jumping
    ensures r == w.(jumpStarting := r.jumpStarting, jumping := r.jumping)
  {
    w.(jumpStarting := false, jumping := true)
  }

  /** The body of the timer a landing schedules: both jump poses end. */
  function LandingEnds(w: World): (r: World)
    ensures !r.jumpLanding && !r.jumping
    ensures r == w.(jumpLanding := r.jumpLanding, jumping := r.jumping)
  {
    w.(jumpLanding := false, jumping := false)
  }

  /** Once the jump-start timer has run, a running game draws the jumping
      clip. */
  lemma JumpPoseFollows(w: World, walkHeld: bool)
    requires Inv(w) && !w.gameOver
    ensures DrawPlayer(JumpStartEnds(w), walkHeld).0 == PlayerAnimation.Jump
  {
  }

  /** Once the landing timer has run, and no new jump has started, a running
      game draws the walking or the idle clip. */
  lemma PoseAfterLanding(w: World, walkHeld: bool)
    requires Inv(w) && !w.gameOver && !w.jumpStarting
    ensures DrawPlayer(LandingEnds(w), walkHeld).0 == if walkHeld then PlayerAnimation.Walk else PlayerAnimation.Idle
  {
  }

  /** Drawing the player: the clip chosen, and the world with that clip
      advanced unless the game is over. */
  function DrawPlayer(w: World, walkHeld: bool): (r: (PlayerAnimation.Clip, World))
    requires Inv(w)
    ensures Inv(r.1) && r.1 == w.(playerClips := r.1.playerClips)
    ensures r.0 == PlayerAnimation.Choose(PlayerAnimation.Flags(w.gameOver, w.jumpStarting, w.jumping, w.jumpLanding, walkHeld))
    ensures w.gameOver ==> r.1 == w
    ensures !w.gameOver ==> PlayerAnimation.Get(r.1.playerClips, r.0) == Animation.Update(PlayerAnimation.Get(w.playerClips, r.0))
    ensures forall c :: c != r.0 ==> PlayerAnimation.Get(r.1.playerClips, c) == PlayerAnimation.Get(w.playerClips, c)
  {
    var step := PlayerAnimation.DrawStep(w.playerClips,
                  PlayerAnimation.Flags(w.gameOver, w.jumpStarting, w.jumping, w.jumpLanding, walkHeld));
    (step.0, w.(playerClips := step.1))
  }
}

=== FILE: generator.dfy ===
/** The level generator (generatePlatforms in game.js): keeps the stretch
    ahead of the camera populated, one platform per call. */
module Generator {

  import opened Common
  import Platforms
  import Enemies
  import Projectiles

  /** A new platform is added while the last one's screen position is less
      than this far from the viewport's right edge. */
  const Lookahead: real := 250.0
  const NewWidth: real := 180.0
  const NewHeight: real := 20.0
  /** The gap to the next platform is MinGap plus up to GapSpread. */
  const MinGap: real := 80.0
  const GapSpread: real := 120.0
  /** The next platform is up to MaxRise higher or lower than the last ... */
  const MaxRise: real := 30.0
  /** ... but never less than FloorClearance above the viewport's bottom. */
  const FloorClearance: real := 120.0
  /** Score needed before spikes and enemies appear. */
  const DangerScore: int := 50
  /** Score needed before shield pick-ups appear. */
  const PowerUpScore: int := 150

  /** The random draws one call may use, in the order the game makes them.
      A draw the game would skip (a short-circuited condition) is ignored. */
  datatype Draws = Draws(
    gap: Draw, rise: Draw, moving: Draw, spikes: Draw,
    walker: Draw, drone: Draw, powerUp: Draw, spikeSpot: Draw)

  /** The parts of the world the generator reads and extends. */
  datatype Level = Level(
    platforms: seq<Platforms.Platform>, enemies: seq<Enemies.Enemy>, powerUps: seq<Projectiles.PowerUp>)

  function Last<T>(s: seq<T>): T
    requires |s| > 0
  {
    s[|s| - 1]
  }

  /** The lookahead test on the last platform. */
  predicate Triggers(tail: Platforms.Platform, cameraX: real, viewWidth: real)
  {
    tail.x - cameraX < viewWidth - Lookahead
  }

  /** The platform placed after `tail`. */
  function NextPlatform(tail: Platforms.Platform, viewHeight: real, score: int, d: Draws): (np: Platforms.Platform)
    ensures np.width == NewWidth && np.height == NewHeight
    ensures MinGap <= np.x - (tail.x + tail.width) < MinGap + GapSpread
    ensures np.y <= viewHeight - FloorClearance
    ensures np.y < tail.y + MaxRise
    ensures np.y >= tail.y - MaxRise || np.y == viewHeight - FloorClearance
    ensures np.spikes.Spiked? ==> score >= DangerScore
    // each of the two flags is its own draw; spikes also wait for DangerScore
    ensures np.isMoving <==> d.moving > 0.6
    ensures np.spikes.Spiked? <==> score >= DangerScore && d.spikes > 0.7
    ensures Platforms.Oscillating(np) && Platforms.SpikesOnTop(np) && np.direction == 1 && np.originalX == np.x
  {
    var x := tail.x + tail.width + d.gap * GapSpread + MinGap;
    var rise := tail.y + (d.rise * 2.0 * MaxRise - MaxRise);
    var y := if rise <= viewHeight - FloorClearance then rise else viewHeight - FloorClearance;
    var isMoving := d.moving > 0.6;
    var hasSpikes := score >= DangerScore && d.spikes > 0.7;
    Platforms.New(x, y, NewWidth, NewHeight, isMoving, hasSpikes, d.spikeSpot)
  }

  /** Enemies are offered only on a static, spike-free platform once the
      score reaches DangerScore; each kind has its own draw. */
  function NewEnemies(np: Platforms.Platform, score: int, d: Draws): (es: seq<Enemies.Enemy>)
    requires np.width == NewWidth
    ensures |es| <= 2
    ensures |es| > 0 ==> score >= DangerScore && !np.isMoving && np.spikes.NoSpikes?
    ensures forall k :: 0 <= k < |es| ==>
              && Enemies.Patrolling(es[k]) && !es[k].exploding && es[k].explodeTimer == 0
              && es[k].minX == np.x + Enemies.Margin && es[k].y + es[k].height == np.y
              && (es[k].kind.Drone? ==> es[k].kind.shootTimer == 0)
    // at most one walker and one drone, the walker first, each on its own draw
    ensures forall k :: 0 <= k < |es| ==> es[k] == Enemies.NewWalker(np) || es[k] == Enemies.NewDrone(np)
    ensures Enemies.NewWalker(np) in es <==> score >= DangerScore && !np.isMoving && np.spikes.NoSpikes? && d.walker > 0.5
    ensures Enemies.NewDrone(np) in es <==> score >= DangerScore && !np.isMoving && np.spikes.NoSpikes? && d.drone > 0.5
    ensures |es| == 2 ==> es == [Enemies.NewWalker(np), Enemies.NewDrone(np)]
  {
    var eligible := score >= DangerScore && !np.isMoving && np.spikes.NoSpikes?;
    var walkers := if eligible && d.walker > 0.5 then [Enemies.NewWalker(np)] else [];
    var drones := if eligible && d.drone > 0.5 then [Enemies.NewDrone(np)] else [];
    walkers + drones
  }

  /** One call. When the last platform is far enough inside the view
      nothing changes. Otherwise exactly one 180 x 20 platform is appended,
      with a gap in [80, 200) after the last one and no lower than 120 above
      the view's bottom; enemies may stand on it, and a shield pick-up may
      float above it. The pick-up is gated by score alone: it may sit over a
      moving or spiked platform. */
  function Generate(lv: Level, cameraX: real, viewWidth: real, viewHeight: real, score: int, d: Draws): (r: Level)
    requires |lv.platforms| > 0
    ensures !Triggers(Last(lv.platforms), cameraX, viewWidth) ==> r == lv
    ensures Triggers(Last(lv.platforms), cameraX, viewWidth) ==>
              && |r.platforms| == |lv.platforms| + 1
              && r.platforms[..|lv.platforms|] == lv.platforms
              && r.platforms[|lv.platforms|] == NextPlatform(Last(lv.platforms), viewHeight, score, d)
    ensures |lv.enemies| <= |r.enemies| <= |lv.enemies| + 2 && r.enemies[..|lv.enemies|] == lv.enemies
    ensures |r.enemies| > |lv.enemies| ==>
              && score >= DangerScore && |r.platforms| == |lv.platforms| + 1
              && !Last(r.platforms).isMoving && Last(r.platforms).spikes.NoSpikes?
    ensures forall k :: |lv.enemies| <= k < |r.enemies| ==>
              && Enemies.Patrolling(r.enemies[k]) && !r.enemies[k].exploding && r.enemies[k].explodeTimer == 0
              && r.enemies[k].y + r.enemies[k].height == Last(r.platforms).y
              && (r.enemies[k].kind.Drone? ==> r.enemies[k].kind.shootTimer == 0)
    ensures |lv.powerUps| <= |r.powerUps| <= |lv.powerUps| + 1 && r.powerUps[..|lv.powerUps|] == lv.powerUps
    ensures |r.powerUps| > |lv.powerUps| ==>
              && score >= PowerUpScore && |r.platforms| == |lv.platforms| + 1
              && Last(r.powerUps) == Projectiles.PowerUp(Last(r.platforms).x + NewWidth / 2.0, Last(r.platforms).y - 30.0)
    // a new platform brings the enemies offered on it, and a pick-up on its
    // own draw once the score is PowerUpScore, over any platform
    ensures Triggers(Last(lv.platforms), cameraX, viewWidth) ==>
              && r.enemies == lv.enemies + NewEnemies(Last(r.platforms), score, d)
              && (|r.powerUps| > |lv.powerUps| <==> score >= PowerUpScore && d.powerUp > 0.8)
  {
    var tail := Last(lv.platforms);
    if !Triggers(tail, cameraX, viewWidth) then lv
    else
      var np := NextPlatform(tail, viewHeight, score, d);
      var pu := if score >= PowerUpScore && d.powerUp > 0.8
                then [Projectiles.PowerUp(np.x + np.width / 2.0, np.y - 30.0)] else [];
      Level(lv.platforms + [np], lv.enemies + NewEnemies(np, score, d), lv.powerUps + pu)
  }
}

=== FILE: geometry.dfy ===
/** Axis-aligned boxes and the overlap test every collision in the game uses. */
module Geometry {

  /** A box with its top-left corner at (x, y); y grows downwards. */
  datatype Box = Box(x: real, y: real, width: real, height: real)

  /** The open spans (a, a + aw) and (b, b + bw) overlap, tested the way the
      game tests it: each span starts before the other one ends. */
  predicate SpanOverlaps(a: real, aw: real, b: real, bw: real)
  {
    a + aw > b && a < b + bw
  }

  /** The game's box-overlap test (hitEnemy, isCollected and the player
      contact tests are all this test). */
  predicate Overlaps(p: Box, q: Box)
  {
    SpanOverlaps(p.x, p.width, q.x, q.width) && SpanOverlaps(p.y, p.height, q.y, q.height)
  }

  /** A box with some area. */
  predicate Proper(b: Box)
  {
    b.width > 0.0 && b.height > 0.0
  }

  /** (px, py) lies strictly inside `b`. */
  predicate Inside(px: real, py: real, b: Box)
  {
    b.x < px < b.x + b.width && b.y < py < b.y + b.height
  }

  function Min(a: real, b: real): real { if a <= b then a else b }
  function MaxR(a: real, b: real): real { if a >= b then a else b }

  /** For boxes with area the overlap test is exactly "the two boxes share
      an interior point", so the test is symmetric and misses no contact. */
  lemma OverlapsIffSharedPoint(p: Box, q: Box)
    requires Proper(p) && Proper(q)
    ensures Overlaps(p, q) <==> exists px, py :: Inside(px, py, p) && Inside(px, py, q)
    ensures Overlaps(p, q) <==> Overlaps(q, p)
  {
    if Overlaps(p, q) {
      var px := (MaxR(p.x, q.x) + Min(p.x + p.width, q.x + q.width)) / 2.0;
      var py := (MaxR(p.y, q.y) + Min(p.y + p.height, q.y + q.height)) / 2.0;
      assert Inside(px, py, p) && Inside(px, py, q);
    }
  }
}

=== FILE: movement.dfy ===
/** The player's per-tick physics: walking, gravity, landing on platforms,
    spikes, jumping and falling out of the world (handleMovement in game.js). */
module Movement {

  import opened Common
  import opened Geometry
  import Platforms
  import Shield

  const PlayerWidth: real := 32.0
  const PlayerHeight: real := 48.0
  /** Horizontal step per tick while a direction key is held. */
  const WalkSpeed: real := 6.0
  /** The upward speed a jump starts with. */
  const JumpHeight: real := 14.0
  /** Added to the vertical speed every tick (y grows downwards). */
  const Gravity: real := 0.5
  /** Score for landing on a platform other than the last one landed on. */
  const LandBonus: int := 10

  /** The player. `lastPlatform` is the index, in the platform sequence, of
      the platform last landed on; platforms are only ever appended, so an
      index names one platform for the whole run. */
  datatype Player = Player(
    x: real, y: real, vy: real, direction: Dir, isJumping: bool,
    score: int, lastPlatform: Option<nat>, shield: Shield.State)

  /** Keys held this tick: `left` is ArrowLeft or KeyA, `right` is ArrowRight
      or KeyD, `jump` is Space, ArrowUp or KeyW. */
  datatype Keys = Keys(left: bool, right: bool, jump: bool)

  function PlayerBox(p: Player): Box
  {
    Box(p.x, p.y, PlayerWidth, PlayerHeight)
  }

  /** Left then right: with both held the steps cancel and the player faces right. */
  function Walk(p: Player, keys: Keys): (r: Player)
    ensures r == p.(x := r.x, direction := r.direction)
    ensures r.x == p.x - (if keys.left then WalkSpeed else 0.0) + (if keys.right then WalkSpeed else 0.0)
    ensures r.direction == if keys.right then 1 else if keys.left then -1 else p.direction
  {
    var p1 := if keys.left then p.(x := p.x - WalkSpeed, direction := -1) else p;
    if keys.right then p1.(x := p1.x + WalkSpeed, direction := 1) else p1
  }

  /** Gravity, then the fall. */
  function Fall(p: Player): (r: Player)
    ensures r == p.(y := r.y, vy := r.vy)
    ensures r.vy == p.vy + Gravity && r.y == p.y + r.vy
  {
    var vy := p.vy + Gravity;
    p.(vy := vy, y := p.y + vy)
  }

  /** The swept landing test: the player overlaps the platform horizontally,
      its feet are at or below the top now, and were at or above it before
      this tick's fall (feet - vy). */
  predicate Lands(p: Player, q: Platforms.Platform)
  {
    && SpanOverlaps(p.x, PlayerWidth, q.x, q.width)
    && p.y + PlayerHeight >= q.y
    && p.y + PlayerHeight - p.vy <= q.y
  }

  /** The player overlaps the platform's spikes horizontally. */
  predicate OnSpikes(p: Player, q: Platforms.Platform)
  {
    q.spikes.Spiked? && SpanOverlaps(p.x, PlayerWidth, q.spikes.spikeX, q.spikes.spikeWidth)
  }

  /** A landing that scores: clear of spikes, on a platform other than the
      one last landed on. */
  predicate Pays(p: Player, q: Platforms.Platform, i: nat)
  {
    Lands(p, q) && !OnSpikes(p, q) && p.lastPlatform != Some(i)
  }

  /** What meeting one platform did: the player after it, whether it killed
      the player, whether the player now stands on it. */
  datatype Contact = Contact(player: Player, killed: bool, landed: bool)

  /** Meeting platform `q`, index `i`, already moved this tick. On spikes
      without a shield the player dies where it is; on spikes with a shield
      it is set on the top and stopped, but neither scores nor records the
      platform. A clean landing sets it on the top, stops it, carries it
      with a moving platform, and scores if the platform is not the last
      one landed on. */
  function Touch(p: Player, q: Platforms.Platform, i: nat): (c: Contact)
    ensures !Lands(p, q) ==> c == Contact(p, false, false)
    ensures c.killed <==> Lands(p, q) && OnSpikes(p, q) && !p.shield.active
    ensures c.killed ==> c.player == p
    ensures c.landed <==> Lands(p, q) && !c.killed
    ensures c.landed ==> c.player.y + PlayerHeight == q.y && c.player.vy == 0.0
    ensures c.player.score == p.score + (if Pays(p, q, i) then LandBonus else 0)
    ensures c.player.lastPlatform == (if Pays(p, q, i) then Some(i) else p.lastPlatform)
    ensures c.player.x == p.x + (if Lands(p, q) && !OnSpikes(p, q) && q.isMoving then q.direction as real * q.speed else 0.0)
    ensures c.player.shield == p.shield && c.player.direction == p.direction && c.player.isJumping == p.isJumping
  {
    if !Lands(p, q) then Contact(p, false, false)
    else if OnSpikes(p, q) then
      if !p.shield.active then Contact(p, true, false)
      else Contact(p.(y := q.y - PlayerHeight, vy := 0.0), false, true)
    else
      var p1 := p.(y := q.y - PlayerHeight, vy := 0.0);
      var p2 := if q.isMoving then p1.(x := p1.x + q.direction as real * q.speed) else p1;
      var p3 := if p2.lastPlatform != Some(i) then p2.(score := p2.score + LandBonus, lastPlatform := Some(i)) else p2;
      Contact(p3, false, true)
  }

  /** A platform that has just paid cannot pay again straight away, however
      it has moved in between: the bonus is paid once per platform in a row. */
  lemma NoSecondPay(p: Player, q: Platforms.Platform, q': Platforms.Platform, i: nat)
    requires Pays(p, q, i)
    ensures !Pays(Touch(p, q, i).player, q', i)
    ensures Touch(Touch(p, q, i).player, q', i).player.score == Touch(p, q, i).player.score
  {
  }

  /** The sweep over the platforms, in order: each platform is moved, then
      met by the player as earlier platforms left it. */
  datatype Sweep = Sweep(player: Player, platforms: seq<Platforms.Platform>, killed: bool, onPlatform: bool)

  /** Sweeps `plats`, whose first element has index `base`. */
  function SweepPlatforms(p: Player, plats: seq<Platforms.Platform>, base: nat): (s: Sweep)
    decreases |plats|
    ensures |s.platforms| == |plats|
    ensures forall k :: 0 <= k < |plats| ==> s.platforms[k] == Platforms.Update(plats[k])
    ensures p.score <= s.player.score <= p.score + LandBonus * |plats|
    ensures s.player.shield == p.shield && s.player.direction == p.direction && s.player.isJumping == p.isJumping
    ensures s.player.lastPlatform == p.lastPlatform
            || (s.player.lastPlatform.Some? && base <= s.player.lastPlatform.value < base + |plats|)
    ensures !s.onPlatform ==> s.player == p
    ensures s.onPlatform ==> s.player.vy == 0.0
    ensures s.killed ==> !p.shield.active
  {
    if |plats| == 0 then Sweep(p, [], false, false)
    else
      var q := Platforms.Update(plats[0]);
      var c := Touch(p, q, base);
      var rest := SweepPlatforms(c.player, plats[1..], base + 1);
      Sweep(rest.player, [q] + rest.platforms, c.killed || rest.killed, c.landed || rest.onPlatform)
  }

  /** The player as the sweep over `plats` (the first with index `base`)
      reaches platform k: platforms 0 .. k-1 have each been met once, in
      order, each already moved. */
  function Before(p: Player, plats: seq<Platforms.Platform>, base: nat, k: nat): Player
    requires k <= |plats|
  {
    if k == 0 then p
    else Touch(Before(p, plats, base, k - 1), Platforms.Update(plats[k - 1]), base + k - 1).player
  }

  /** Meeting platform k, as the sweep reaches it, kills the player. */
  predicate KilledAt(p: Player, plats: seq<Platforms.Platform>, base: nat, k: nat)
    requires k < |plats|
  {
    Touch(Before(p, plats, base, k), Platforms.Update(plats[k]), base + k).killed
  }

  /** Meeting platform k, as the sweep reaches it, leaves the player standing on it. */
  predicate LandedAt(p: Player, plats: seq<Platforms.Platform>, base: nat, k: nat)
    requires k < |plats|
  {
    Touch(Before(p, plats, base, k), Platforms.Update(plats[k]), base + k).landed
  }

  /** The number of platforms among the first n that pay as the sweep reaches them. */
  function PaidAmong(p: Player, plats: seq<Platforms.Platform>, base: nat, n: nat): nat
    requires n <= |plats|
  {
    if n == 0 then 0
    else PaidAmong(p, plats, base, n - 1)
         + (if Pays(Before(p, plats, base, n - 1), Platforms.Update(plats[n - 1]), base + n - 1) then 1 else 0)
  }

  /** Every paying platform met so far has added LandBonus, and nothing else has. */
  lemma {:induction false} BeforeScore(p: Player, plats: seq<Platforms.Platform>, base: nat, n: nat)
    requires n <= |plats|
    ensures Before(p, plats, base, n).score == p.score + LandBonus * PaidAmong(p, plats, base, n)
  {
    if n > 0 {
      BeforeScore(p, plats, base, n - 1);
    }
  }

  /** Sweeping from the second platform on, after the first was met, is the
      same sweep one step further on. */
  lemma {:induction false} BeforeShift(p: Player, plats: seq<Platforms.Platform>, base: nat, k: nat)
    requires 0 < |plats| && k < |plats|
    ensures Before(p, plats, base, k + 1)
            == Before(Touch(p, Platforms.Update(plats[0]), base).player, plats[1..], base + 1, k)
  {
    if k > 0 {
      BeforeShift(p, plats, base, k - 1);
      assert plats[1..][k - 1] == plats[k];
    }
  }

  /** Platform k + 1 of the whole sweep is platform k of the sweep that starts
      after the first platform was met. */
  lemma ShiftAt(p: Player, plats: seq<Platforms.Platform>, base: nat, k: nat)
    requires k + 1 < |plats|
    ensures var c := Touch(p, Platforms.Update(plats[0]), base);
            && (KilledAt(p, plats, base, k + 1) <==> KilledAt(c.player, plats[1..], base + 1, k))
            && (LandedAt(p, plats, base, k + 1) <==> LandedAt(c.player, plats[1..], base + 1, k))
  {
    BeforeShift(p, plats, base, k);
    assert plats[1..][k] == plats[k + 1];
  }

  /** One step of the sweep: meet the first moved platform, then sweep the rest. */
  lemma SweepStep(p: Player, plats: seq<Platforms.Platform>, base: nat)
    requires |plats| > 0
    ensures SweepPlatforms(p, plats, base).player
            == SweepPlatforms(Touch(p, Platforms.Update(plats[0]), base).player, plats[1..], base + 1).player
  {
  }

  /** If the rest of the sweep ends as the rest of the platforms, met in
      turn, leave the player, so does the whole sweep. */
  lemma SweepPlayerStep(p: Player, plats: seq<Platforms.Platform>, base: nat)
    requires |plats| > 0
    requires var c := Touch(p, Platforms.Update(plats[0]), base).player;
             SweepPlatforms(c, plats[1..], base + 1).player == Before(c, plats[1..], base + 1, |plats[1..]|)
    ensures SweepPlatforms(p, plats, base).player == Before(p, plats, base, |plats|)
  {
    assert |plats[1..]| == |plats| - 1;
    SweepStep(p, plats, base);
    BeforeShift(p, plats, base, |plats| - 1);
  }

  /** The sweep ends with the player as the last platform left it. */
  lemma {:induction false} SweepPlayer(p: Player, plats: seq<Platforms.Platform>, base: nat)
    ensures SweepPlatforms(p, plats, base).player == Before(p, plats, base, |plats|)
    decreases |plats|
  {
    if |plats| > 0 {
      SweepPlayer(Touch(p, Platforms.Update(plats[0]), base).player, plats[1..], base + 1);
      SweepPlayerStep(p, plats, base);
    }
  }

  /** The sweep kills exactly when meeting some platform killed. */
  lemma {:induction false} SweepKilled(p: Player, plats: seq<Platforms.Platform>, base: nat)
    ensures SweepPlatforms(p, plats, base).killed <==> exists k :: 0 <= k < |plats| && KilledAt(p, plats, base, k)
    decreases |plats|
  {
    if |plats| > 0 {
      var c := Touch(p, Platforms.Update(plats[0]), base);
      var tail := plats[1..];
      SweepKilled(c.player, tail, base + 1);
      assert c.killed == KilledAt(p, plats, base, 0);
      if SweepPlatforms(c.player, tail, base + 1).killed {
        var k :| 0 <= k < |tail| && KilledAt(c.player, tail, base + 1, k);
        ShiftAt(p, plats, base, k);
      }
      if exists k :: 1 <= k < |plats| && KilledAt(p, plats, base, k) {
        var k :| 1 <= k < |plats| && KilledAt(p, plats, base, k);
        ShiftAt(p, plats, base, k - 1);
      }
    }
  }

  /** The sweep stands the player on a platform exactly when meeting some platform did. */
  lemma {:induction false} SweepLanded(p: Player, plats: seq<Platforms.Platform>, base: nat)
    ensures SweepPlatforms(p, plats, base).onPlatform <==> exists k :: 0 <= k < |plats| && LandedAt(p, plats, base, k)
    decreases |plats|
  {
    if |plats| > 0 {
      var c := Touch(p, Platforms.Update(plats[0]), base);
      var tail := plats[1..];
      SweepLanded(c.player, tail, base + 1);
      assert c.landed == LandedAt(p, plats, base, 0);
      if SweepPlatforms(c.player, tail, base + 1).onPlatform {
        var k :| 0 <= k < |tail| && LandedAt(c.player, tail, base + 1, k);
        ShiftAt(p, plats, base, k);
      }
      if exists k :: 1 <= k < |plats| && LandedAt(p, plats, base, k) {
        var k :| 1 <= k < |plats| && LandedAt(p, plats, base, k);
        ShiftAt(p, plats, base, k - 1);
      }
    }
  }

  /** The sweep meets every platform once, in order: it ends with the player
      as the last platform left it, having scored LandBonus for each platform
      that paid; it kills exactly when some platform killed, and stands the
      player on a platform exactly when some platform did. */
  lemma SweepMeetsEach(p: Player, plats: seq<Platforms.Platform>, base: nat)
    ensures SweepPlatforms(p, plats, base).player == Before(p, plats, base, |plats|)
    ensures SweepPlatforms(p, plats, base).killed <==> exists k :: 0 <= k < |plats| && KilledAt(p, plats, base, k)
    ensures SweepPlatforms(p, plats, base).onPlatform <==> exists k :: 0 <= k < |plats| && LandedAt(p, plats, base, k)
    ensures SweepPlatforms(p, plats, base).player.score == p.score + LandBonus * PaidAmong(p, plats, base, |plats|)
  {
    SweepPlayer(p, plats, base);
    SweepKilled(p, plats, base);
    SweepLanded(p, plats, base);
    BeforeScore(p, plats, base, |plats|);
  }

  /** What handleMovement leaves: the player, the moved platforms, whether
      the player died (on spikes or by falling), whether it fell, the high
      score, whether it came down from the air onto a platform, and whether
      it started a jump. */
  datatype Moved = Moved(
    player: Player, platforms: seq<Platforms.Platform>, onPlatform: bool,
    died: bool, fell: bool, highScore: int, landedFromAir: bool, jumped: bool)

  /** One tick of the player in a view `viewHeight` high. */
  function HandleMovement(p: Player, plats: seq<Platforms.Platform>, keys: Keys, viewHeight: real, highScore: int): (m: Moved)
    ensures |m.platforms| == |plats|
    ensures forall k :: 0 <= k < |plats| ==> m.platforms[k] == Platforms.Update(plats[k])
    ensures p.score <= m.player.score <= p.score + LandBonus * |plats|
    ensures m.player.shield == p.shield
    ensures m.player.lastPlatform == p.lastPlatform
            || (m.player.lastPlatform.Some? && m.player.lastPlatform.value < |plats|)
    // gravity: a player that meets no platform speeds up by Gravity and falls by its new speed
    ensures !m.onPlatform ==> m.player.vy == p.vy + Gravity && m.player.y == p.y + p.vy + Gravity
    ensures !m.onPlatform ==> m.player.score == p.score && m.player.isJumping
    // a jump starts exactly when the key is held and the player stands on a platform
    ensures m.jumped <==> keys.jump && m.onPlatform
    ensures m.jumped ==> m.player.vy == -JumpHeight && m.player.isJumping
    ensures m.onPlatform && !m.jumped ==> m.player.vy == 0.0 && !m.player.isJumping
    ensures m.landedFromAir <==> m.onPlatform && p.isJumping
    // falling out of the world ends the game and is the only death that records the high score
    ensures m.fell <==> m.player.y > viewHeight
    ensures m.fell ==> m.died
    ensures m.died ==> m.fell || !p.shield.active
    ensures m.highScore == if m.fell then Max(highScore, m.player.score) else highScore
    ensures m.highScore >= highScore
    // the player meets each platform once, in order, after walking and falling
    ensures !m.onPlatform ==> m.player.x == Walk(p, keys).x
    ensures m.player == Before(Fall(Walk(p, keys)), plats, 0, |plats|).(vy := m.player.vy, isJumping := m.player.isJumping)
    ensures !m.jumped ==> m.player.vy == Before(Fall(Walk(p, keys)), plats, 0, |plats|).vy
    ensures m.player.score == p.score + LandBonus * PaidAmong(Fall(Walk(p, keys)), plats, 0, |plats|)
    ensures m.onPlatform <==> exists k :: 0 <= k < |plats| && LandedAt(Fall(Walk(p, keys)), plats, 0, k)
    ensures m.died <==> m.fell || exists k :: 0 <= k < |plats| && KilledAt(Fall(Walk(p, keys)), plats, 0, k)
  {
    SweepMeetsEach(Fall(Walk(p, keys)), plats, 0);
    var s := SweepPlatforms(Fall(Walk(p, keys)), plats, 0);
    var q := s.player;
    var landing := s.onPlatform && q.isJumping;
    var q1 := q.(isJumping := !s.onPlatform);
    var jump := keys.jump && !q1.isJumping;
    var q2 := if jump then q1.(vy := -JumpHeight, isJumping := true) else q1;
    var fell := q2.y > viewHeight;
    Moved(q2, s.platforms, s.onPlatform, s.killed || fell, fell,
          if fell then Max(highScore, q2.score) else highScore, landing, jump)
  }
}

=== FILE: platforms.dfy ===
/** Platforms: their construction, spikes and oscillation (class Platform in game.js). */
module Platforms {

  import opened Common

  /** The spiked stretch of a platform's top, if it has one. */
  datatype Spikes = NoSpikes | Spiked(spikeX: real, spikeWidth: real)

  /** A platform. A moving one slides back and forth around `originalX`. */
  datatype Platform = Platform(
    x: real, y: real, width: real, height: real,
    isMoving: bool, originalX: real, direction: Dir, speed: real,
    spikes: Spikes)

  /** How far a moving platform may stray from its origin before turning. */
  const MoveRange: real := 100.0
  /** The per-tick step of a moving platform (a static one has speed 0). */
  const MovingSpeed: real := 2.0

  /** Where the spikes start relative to the platform's left edge: at the
      edge, centred-ish, or near the right end, by one random draw. */
  function SpikeStart(width: real, spot: Draw): real
  {
    if spot < 0.33 then 0.0
    else if spot < 0.66 then width / 2.0 - 30.0
    else width - 60.0
  }

  /** The spikes' offset from the platform's left edge. */
  function SpikeShift(p: Platform): real
    requires p.spikes.Spiked?
  {
    p.spikes.spikeX - p.x
  }

  /** The spikes lie on the platform's top. */
  predicate SpikesOnTop(p: Platform)
  {
    p.spikes.Spiked? ==> p.x <= p.spikes.spikeX && p.spikes.spikeX + p.spikes.spikeWidth <= p.x + p.width
  }

  /** A static platform stays at its origin; a moving one keeps within
      MoveRange + MovingSpeed of it, and once past either end of the range
      it is heading back. */
  predicate Oscillating(p: Platform)
  {
    && (!p.isMoving ==> p.x == p.originalX)
    && (p.isMoving ==>
      && p.speed == MovingSpeed
      && p.originalX - MoveRange - MovingSpeed <= p.x <= p.originalX + MoveRange + MovingSpeed
      && (p.x > p.originalX + MoveRange ==> p.direction == -1)
      && (p.x < p.originalX - MoveRange ==> p.direction == 1))
  }

  /** The constructor. Spikes take a third of the width, placed by `spot`. */
  function New(x: real, y: real, width: real, height: real, isMoving: bool, hasSpikes: bool, spot: Draw): (p: Platform)
    ensures p.x == x && p.originalX == x && p.y == y && p.width == width && p.height == height
    ensures p.isMoving == isMoving && p.direction == 1
    ensures p.spikes.Spiked? <==> hasSpikes
    ensures hasSpikes ==> p.spikes.spikeWidth == width / 3.0
    ensures Oscillating(p)
    ensures 60.0 <= width <= 180.0 ==> SpikesOnTop(p)
  {
    Platform(x, y, width, height, isMoving, x, 1, if isMoving then MovingSpeed else 0.0,
             if hasSpikes then Spiked(x + SpikeStart(width, spot), width / 3.0) else NoSpikes)
  }

  /** The platform has strayed outside [originalX - MoveRange, originalX + MoveRange]. */
  predicate OutOfRange(p: Platform)
  {
    p.x > p.originalX + MoveRange || p.x < p.originalX - MoveRange
  }

  /** One tick. A moving platform steps by direction * speed, turns round
      when the step took it out of range, and its spikes then step by the
      direction as it is AFTER that check, so on a turning tick the spikes
      shift against the platform by twice the step. */
  function Update(p: Platform): (r: Platform)
    ensures !p.isMoving ==> r == p
    ensures Oscillating(p) ==> Oscillating(r)
    ensures r.y == p.y && r.width == p.width && r.height == p.height
    ensures r.isMoving == p.isMoving && r.originalX == p.originalX && r.speed == p.speed
    ensures r.spikes.Spiked? == p.spikes.Spiked?
    ensures r.spikes.Spiked? ==> r.spikes.spikeWidth == p.spikes.spikeWidth
    ensures p.isMoving ==> r.x == p.x + p.direction as real * p.speed
    ensures p.isMoving ==> (r.direction != p.direction <==> OutOfRange(r))
    ensures p.spikes.Spiked? && r.direction == p.direction ==> SpikeShift(r) == SpikeShift(p)
    ensures p.spikes.Spiked? && r.direction != p.direction ==>
              SpikeShift(r) == SpikeShift(p) - 2.0 * p.direction as real * p.speed
  {
    if !p.isMoving then p
    else
      var x := p.x + p.direction as real * p.speed;
      var d := if x > p.originalX + MoveRange || x < p.originalX - MoveRange then Reverse(p.direction) else p.direction;
      var spikes := match p.spikes
        case NoSpikes => NoSpikes
        case Spiked(sx, sw) => Spiked(sx + d as real * p.speed, sw);
      p.(x := x, direction := d, spikes := spikes)
  }

  /** `n` successive ticks. */
  function Run(p: Platform, n: nat): (r: Platform)
    ensures r.y == p.y && r.width == p.width && r.height == p.height
    ensures r.isMoving == p.isMoving && r.originalX == p.originalX && r.speed == p.speed
    ensures r.spikes.Spiked? == p.spikes.Spiked?
  {
    if n == 0 then p else Update(Run(p, n - 1))
  }

  /** One tick keeps a moving platform oscillating within its band. */
  lemma UpdateOscillates(p: Platform)
    requires Oscillating(p)
    ensures Oscillating(Update(p))
  {
  }

  /** A platform built by the constructor oscillates within
      MoveRange + MovingSpeed of its origin for ever. */
  lemma {:induction false} RunOscillates(p: Platform, n: nat)
    requires Oscillating(p)
    ensures Oscillating(Run(p, n))
    ensures p.isMoving ==> p.originalX - MoveRange - MovingSpeed <= Run(p, n).x <= p.originalX + MoveRange + MovingSpeed
    ensures !p.isMoving ==> Run(p, n) == p
  {
    if n > 0 {
      RunOscillates(p, n - 1);
      UpdateOscillates(Run(p, n - 1));
    }
  }

  /** The signed per-tick step, direction * speed. */
  function Velocity(p: Platform): (v: real)
    ensures v == p.direction as real * p.speed
  {
    if p.direction == 1 then p.speed else -p.speed
  }

  /** The spike drift is bounded: the spikes' offset minus the platform's
      signed step never changes, so the spikes stray at most 2 * speed from
      where they were placed, and sit back in place whenever the platform
      heads the way it started. */
  lemma {:induction false} SpikeDrift(p: Platform, n: nat)
    requires p.spikes.Spiked?
    ensures SpikeShift(Run(p, n)) - Velocity(Run(p, n)) == SpikeShift(p) - Velocity(p)
    ensures Run(p, n).direction == p.direction ==> SpikeShift(Run(p, n)) == SpikeShift(p)
  {
    if n > 0 {
      SpikeDrift(p, n - 1);
      StepShift(Run(p, n - 1));
    }
  }

  /** One tick keeps the spikes' offset minus the signed step. */
  lemma StepShift(q: Platform)
    requires q.spikes.Spiked?
    ensures SpikeShift(Update(q)) - Velocity(Update(q)) == SpikeShift(q) - Velocity(q)
  {
    var r := Update(q);
    if r.direction != q.direction {
      if q.direction == 1 {
        assert r.direction == -1;
      } else {
        assert r.direction == 1;
      }
    }
  }
}

=== FILE: player_animation.dfy ===
/** Which clip the player is drawn with, and the clip advance that drawing
    does (the non-rendering part of drawPlayer in game.js). */
module PlayerAnimation {

  import Animation

  /** The player's six clips. */
  datatype Clip = DieLie | JumpStart | Jump | JumpLand | Walk | Idle

  /** What the choice reads: game over, the three jump display flags, and
      whether a walk key (ArrowLeft, ArrowRight, KeyA or KeyD) is held. */
  datatype Flags = Flags(gameOver: bool, jumpStarting: bool, jumping: bool, jumpLanding: bool, walkHeld: bool)

  /** The priority rule: game over, then jump start, jumping, landing,
      walking, and idle when nothing else applies. */
  function Choose(f: Flags): (c: Clip)
    ensures c == DieLie <==> f.gameOver
    ensures c == JumpStart <==> !f.gameOver && f.jumpStarting
    ensures c == Jump <==> !f.gameOver && !f.jumpStarting && f.jumping
    ensures c == JumpLand <==> !f.gameOver && !f.jumpStarting && !f.jumping && f.jumpLanding
    ensures c == Walk <==> !f.gameOver && !f.jumpStarting && !f.jumping && !f.jumpLanding && f.walkHeld
    ensures c == Idle <==> !f.gameOver && !f.jumpStarting && !f.jumping && !f.jumpLanding && !f.walkHeld
  {
    if f.gameOver then DieLie
    else if f.jumpStarting then JumpStart
    else if f.jumping then Jump
    else if f.jumpLanding then JumpLand
    else if f.walkHeld then Walk
    else Idle
  }

  /** The clip objects, one per Clip. */
  datatype Clips = Clips(idle: Animation.Anim, walk: Animation.Anim, jumpStart: Animation.Anim,
                         jump: Animation.Anim, jumpLand: Animation.Anim, dieLie: Animation.Anim)

  predicate ValidClips(cs: Clips)
  {
    && Animation.Valid(cs.idle) && Animation.Valid(cs.walk) && Animation.Valid(cs.jumpStart)
    && Animation.Valid(cs.jump) && Animation.Valid(cs.jumpLand) && Animation.Valid(cs.dieLie)
  }

  function Get(cs: Clips, c: Clip): Animation.Anim
  {
    match c
    case Idle => cs.idle
    case Walk => cs.walk
    case JumpStart => cs.jumpStart
    case Jump => cs.jump
    case JumpLand => cs.jumpLand
    case DieLie => cs.dieLie
  }

  function Put(cs: Clips, c: Clip, a: Animation.Anim): (r: Clips)
    ensures Get(r, c) == a
    ensures forall c' :: c' != c ==> Get(r, c') == Get(cs, c')
  {
    match c
    case Idle => cs.(idle := a)
    case Walk => cs.(walk := a)
    case JumpStart => cs.(jumpStart := a)
    case Jump => cs.(jump := a)
    case JumpLand => cs.(jumpLand := a)
    case DieLie => cs.(dieLie := a)
  }

  /** The clips as the game starts: one frame each, except two for walking. */
  function Initial(): (cs: Clips)
    ensures ValidClips(cs)
    ensures forall c :: Get(cs, c).index == 0 && Get(cs, c).timer == 0
  {
    Clips(
      Animation.New([Animation.Frame(0, 0, 32, 48)], 1),
      Animation.New([Animation.Frame(32, 0, 32, 48), Animation.Frame(64, 0, 32, 48)], 10),
      Animation.New([Animation.Frame(96, 0, 32, 48)], 1),
      Animation.New([Animation.Frame(128, 0, 32, 48)], 1),
      Animation.New([Animation.Frame(160, 0, 32, 48)], 1),
      Animation.New([Animation.Frame(224, 0, 32, 48)], 1))
  }

  /** Drawing the player: choose the clip, then advance it unless the game
      is over with the lying-down clip chosen. Since game over always
      chooses that clip, a finished game never advances any clip, and a
      running game advances exactly the chosen one. */
  function DrawStep(cs: Clips, f: Flags): (r: (Clip, Clips))
    requires ValidClips(cs)
    ensures r.0 == Choose(f) && ValidClips(r.1)
    ensures f.gameOver ==> r.1 == cs
    ensures !f.gameOver ==> Get(r.1, r.0) == Animation.Update(Get(cs, r.0))
    ensures forall c :: c != r.0 ==> Get(r.1, c) == Get(cs, c)
  {
    var c := Choose(f);
    if !f.gameOver || (f.gameOver && c != DieLie) then (c, Put(cs, c, Animation.Update(Get(cs, c))))
    else (c, cs)
  }
}

=== FILE: projectiles.dfy ===
/** Bullets and shield pick-ups (classes Bullet and ShieldPowerUp in game.js). */
module Projectiles {

  import opened Common
  import opened Geometry

  /** A bullet, fired by the player or by a drone. */
  datatype Bullet = Bullet(x: real, y: real, direction: Dir)

  const BulletWidth: real := 10.0
  const BulletHeight: real := 5.0
  const BulletSpeed: real := 8.0

  function BulletBox(b: Bullet): Box
  {
    Box(b.x, b.y, BulletWidth, BulletHeight)
  }

  /** One tick of flight. */
  function Update(b: Bullet): (r: Bullet)
    ensures r.y == b.y && r.direction == b.direction
    ensures b.direction == 1 ==> r.x == b.x + BulletSpeed
    ensures b.direction == -1 ==> r.x == b.x - BulletSpeed
  {
    b.(x := b.x + BulletSpeed * b.direction as real)
  }

  /** `n` successive ticks. */
  function Run(b: Bullet, n: nat): Bullet
  {
    if n == 0 then b else Update(Run(b, n - 1))
  }

  /** A bullet flies level at a constant 8 per tick in its own direction. */
  lemma {:induction false} RunFlies(b: Bullet, n: nat)
    ensures Run(b, n).y == b.y && Run(b, n).direction == b.direction
    ensures b.direction == 1 ==> Run(b, n).x == b.x + BulletSpeed * n as real
    ensures b.direction == -1 ==> Run(b, n).x == b.x - BulletSpeed * n as real
  {
    if n > 0 {
      RunFlies(b, n - 1);
    }
  }

  /** hitEnemy: the bullet's box overlaps the enemy's box. */
  predicate HitEnemy(b: Bullet, enemy: Box)
  {
    Overlaps(BulletBox(b), enemy)
  }

  /** The cull test: the bullet's left edge is left of the camera or right
      of the viewport's right edge. */
  predicate OffScreen(b: Bullet, cameraX: real, viewWidth: real)
  {
    b.x < cameraX || b.x > cameraX + viewWidth
  }

  /** A shield pick-up; every one raises the shield for five seconds. */
  datatype PowerUp = PowerUp(x: real, y: real)

  const PowerUpSize: real := 20.0
  const PowerUpSeconds: int := 5

  function PowerUpBox(u: PowerUp): Box
  {
    Box(u.x, u.y, PowerUpSize, PowerUpSize)
  }

  /** isCollected: the player's box overlaps the pick-up's box. */
  predicate IsCollected(u: PowerUp, player: Box)
  {
    Overlaps(player, PowerUpBox(u))
  }
}

=== FILE: scenario.dfy ===
/** The opening of a run: with no key held the player drops onto the
    starting platform, which is placed so that this always happens. */
module Scenario {

  import opened Common
  import opened Game
  import Movement
  import Platforms
  import Generator
  import Shield

  const NoKeys: Movement.Keys := Movement.Keys(false, false, false)

  /** Every platform after the first came from the generator: 180 wide,
      with its origin at x = 330 or beyond. */
  predicate Clear(w: World)
  {
    forall k :: 1 <= k < |w.platforms| ==> w.platforms[k].width == 180.0 && w.platforms[k].originalX >= 330.0
  }

  /** A run that has not met anything yet: no enemies, bullets or pick-ups,
      no shield, the player still at x = 100 with a score below 40. */
  predicate Quiet(w: World)
  {
    && Inv(w) && !w.gameOver && Clear(w)
    && w.enemies == [] && w.bullets == [] && w.enemyBullets == [] && w.powerUps == []
    && w.player.x == 100.0 && 0 <= w.player.score < 40 && w.player.shield == Shield.Off
  }

  /** Generated platforms never reach a player standing at x = 100. */
  lemma {:induction false} FarSweep(p: Movement.Player, plats: seq<Platforms.Platform>, base: nat)
    requires p.x == 100.0
    requires forall k :: 0 <= k < |plats| ==> Platforms.Oscillating(plats[k]) && plats[k].originalX >= 330.0
    ensures Movement.SweepPlatforms(p, plats, base).player == p
    ensures !Movement.SweepPlatforms(p, plats, base).onPlatform && !Movement.SweepPlatforms(p, plats, base).killed
    decreases |plats|
  {
    if |plats| > 0 {
      var q := Platforms.Update(plats[0]);
      assert Platforms.Oscillating(q);
      assert !Movement.Lands(p, q);
      FarSweep(p, plats[1..], base + 1);
    }
  }

  /** In a quiet run only the starting platform matters to the player. */
  lemma StartSweep(p: Movement.Player, plats: seq<Platforms.Platform>)
    requires p.x == 100.0 && |plats| >= 1 && IsStartPlatform(plats[0])
    requires forall k :: 1 <= k < |plats| ==> Platforms.Oscillating(plats[k]) && plats[k].originalX >= 330.0
    ensures var s := Movement.SweepPlatforms(p, plats, 0);
            var c := Movement.Touch(p, plats[0], 0);
            s.player == c.player && s.onPlatform == c.landed && s.killed == c.killed
  {
    var c := Movement.Touch(p, plats[0], 0);
    assert Platforms.Update(plats[0]) == plats[0];
    assert c.player.x == 100.0;
    FarSweep(c.player, plats[1..], 1);
  }

  /** The player's tick in a quiet run, as if the starting platform were alone. */
  function StartOnly(w: World, viewHeight: real): Movement.Moved
    requires |w.platforms| >= 1
  {
    Movement.HandleMovement(w.player, [w.platforms[0]], NoKeys, viewHeight, w.highScore)
  }

  /** The player's part of a quiet tick. */
  lemma {:induction false} QuietMove(w: World, viewHeight: real)
    requires Quiet(w)
    ensures var a := MovePlayer(w, NoKeys, viewHeight);
            && a.player == StartOnly(w, viewHeight).player
            && a.gameOver == StartOnly(w, viewHeight).died
            && Clear(a)
  {
    var p := w.player;
    assert w.player.(shield := Shield.Update(w.player.shield)) == p;
    var walked := Movement.Fall(Movement.Walk(p, NoKeys));
    StartSweep(walked, w.platforms);
    StartSweep(walked, [w.platforms[0]]);
  }

  /** Below DangerScore the level grows by platforms alone, and every new
      platform lies beyond x = 330. */
  lemma {:induction false} QuietGrow(a: World, viewWidth: real, viewHeight: real, d: Generator.Draws)
    requires Inv(a) && Clear(a) && a.player.score < Generator.DangerScore
    requires a.enemies == [] && a.powerUps == []
    ensures var g := Grow(a, viewWidth, viewHeight, d);
            Clear(g) && g.enemies == [] && g.powerUps == [] && g.player == a.player && g.gameOver == a.gameOver
  {
    var g := Grow(a, viewWidth, viewHeight, d);
    var n := |a.platforms|;
    if |g.platforms| > n {
      var tail := a.platforms[n - 1];
      assert Platforms.Oscillating(tail);
      assert g.platforms[n].x >= tail.x + tail.width + Generator.MinGap;
    }
  }

  /** The first half of a quiet tick. */
  lemma {:induction false} QuietAdvance(w: World, viewWidth: real, viewHeight: real, d: Generator.Draws)
    requires Quiet(w)
    ensures var a := Advance(w, NoKeys, viewWidth, viewHeight, d);
            && a.player == StartOnly(w, viewHeight).player
            && a.gameOver == StartOnly(w, viewHeight).died
            && Inv(a) && Clear(a)
            && a.enemies == [] && a.bullets == [] && a.enemyBullets == [] && a.powerUps == []
  {
    QuietMove(w, viewHeight);
    QuietGrow(MovePlayer(w, NoKeys, viewHeight), viewWidth, viewHeight, d);
  }

  /** With nothing to fight, the second half of a tick changes nothing. */
  lemma NothingToFight(a: World, viewWidth: real)
    requires Inv(a) && a.enemies == [] && a.bullets == [] && a.enemyBullets == [] && a.powerUps == []
    ensures Collect(EnemyFire(MoveEnemies(ShootEnemies(a, viewWidth)), viewWidth)) == a
  {
    var b := ShootEnemies(a, viewWidth);
    assert b == a;
    var c := MoveEnemies(b);
    assert c == b;
    var e := EnemyFire(c, viewWidth);
    assert e == c;
  }

  /** A quiet tick with no key held moves the player exactly as the starting
      platform alone would, and leaves the run quiet unless it ends it. */
  lemma QuietTick(w: World, viewWidth: real, viewHeight: real, d: Generator.Draws)
    requires Quiet(w)
    ensures var r := Tick(w, NoKeys, viewWidth, viewHeight, d);
            && r.player == StartOnly(w, viewHeight).player
            && r.gameOver == StartOnly(w, viewHeight).died
            && r.platforms[0] == w.platforms[0]
            && (!r.gameOver && r.player.x == 100.0 && r.player.score < 40 && r.player.score >= 0 ==> Quiet(r))
  {
    QuietAdvance(w, viewWidth, viewHeight, d);
    NothingToFight(Advance(w, NoKeys, viewWidth, viewHeight, d), viewWidth);
  }

  /** A quiet tick of the player is one fall followed by one touch of the
      starting platform. */
  lemma StartStep(w: World, viewHeight: real)
    requires Quiet(w)
    ensures var c := Movement.Touch(Movement.Fall(w.player), w.platforms[0], 0);
            var m := StartOnly(w, viewHeight);
            && m.player.x == c.player.x && m.player.y == c.player.y && m.player.vy == c.player.vy
            && m.player.score == c.player.score && m.player.lastPlatform == c.player.lastPlatform
            && m.player.shield == c.player.shield
            && (m.died <==> c.killed || c.player.y > viewHeight)
  {
    var q := w.platforms[0];
    assert Platforms.Update(q) == q;
    assert Movement.Walk(w.player, NoKeys) == w.player;
    var f := Movement.Fall(w.player);
    var c := Movement.Touch(f, q, 0);
    var s := Movement.SweepPlatforms(f, [q], 0);
    assert [q][1..] == [];
    assert Movement.SweepPlatforms(c.player, [], 1) == Movement.Sweep(c.player, [], false, false);
    assert s.player == c.player && s.killed == c.killed;
  }

  /** The first tick from the start: falling. */
  lemma FallingStart(w: World, viewHeight: real)
    requires Quiet(w) && w.player.y == viewHeight - 150.0 && w.player.vy == 0.0
    requires w.platforms[0].y == viewHeight - 100.0 && w.player.lastPlatform == None
    ensures var m := StartOnly(w, viewHeight);
            && !m.died && m.player.y == viewHeight - 149.5 && m.player.vy == 0.5
            && m.player.x == 100.0 && m.player.score == w.player.score && m.player.lastPlatform == None
  {
    StartStep(w, viewHeight);
    assert !Movement.Lands(Movement.Fall(w.player), w.platforms[0]);
  }

  /** The second tick from the start: still falling. */
  lemma FallingStartAgain(w: World, viewHeight: real)
    requires Quiet(w) && w.player.y == viewHeight - 149.5 && w.player.vy == 0.5
    requires w.platforms[0].y == viewHeight - 100.0 && w.player.lastPlatform == None
    ensures var m := StartOnly(w, viewHeight);
            && !m.died && m.player.y == viewHeight - 148.5 && m.player.vy == 1.0
            && m.player.x == 100.0 && m.player.score == w.player.score && m.player.lastPlatform == None
  {
    StartStep(w, viewHeight);
    assert !Movement.Lands(Movement.Fall(w.player), w.platforms[0]);
  }

  /** The third tick from the start: the landing. */
  lemma Landing(w: World, viewHeight: real)
    requires Quiet(w) && w.player.y == viewHeight - 148.5 && w.player.vy == 1.0
    requires w.platforms[0].y == viewHeight - 100.0 && w.player.lastPlatform == None
    ensures var m := StartOnly(w, viewHeight);
            && !m.died && m.player.y == viewHeight - 148.0 && m.player.vy == 0.0
            && m.player.score == w.player.score + Movement.LandBonus && m.player.lastPlatform == Some(0)
  {
    StartStep(w, viewHeight);
    var f := Movement.Fall(w.player);
    assert Movement.Lands(f, w.platforms[0]);
    assert !Movement.OnSpikes(f, w.platforms[0]);
  }

  /** From the starting state, with no key held, the player falls for two
      ticks and lands on the starting platform on the third, alive, resting
      on its top, with the single landing bonus. */
  lemma LandsOnStartPlatform(viewWidth: real, viewHeight: real, storedHighScore: int,
                             d1: Generator.Draws, d2: Generator.Draws, d3: Generator.Draws)
    ensures var w1 := Tick(Initial(viewHeight, storedHighScore), NoKeys, viewWidth, viewHeight, d1);
            var w2 := Tick(w1, NoKeys, viewWidth, viewHeight, d2);
            var w3 := Tick(w2, NoKeys, viewWidth, viewHeight, d3);
            && !w1.gameOver && !w2.gameOver && !w3.gameOver
            && w1.player.score == 0 && w2.player.score == 0 && w3.player.score == Movement.LandBonus
            && w3.player.y + Movement.PlayerHeight == w3.platforms[0].y && w3.player.vy == 0.0
            && w3.player.lastPlatform == Some(0)
  {
    var w0 := Initial(viewHeight, storedHighScore);
    assert Quiet(w0);
    QuietTick(w0, viewWidth, viewHeight, d1);
    FallingStart(w0, viewHeight);
    var w1 := Tick(w0, NoKeys, viewWidth, viewHeight, d1);
    assert Quiet(w1);
    QuietTick(w1, viewWidth, viewHeight, d2);
    var w2 := Tick(w1, NoKeys, viewWidth, viewHeight, d2);
    FallingStartAgain(w1, viewHeight);
    assert Quiet(w2);
    QuietTick(w2, viewWidth, viewHeight, d3);
    Landing(w2, viewHeight);
  }
}

=== FILE: shield.dfy ===
/** The player's shield timer (activateShield and updateShield in game.js). */
module Shield {

  /** Whether the shield is up, and the ticks it has left. */
  datatype State = State(active: bool, timer: int)

  /** The game runs at 60 ticks per second. */
  const TicksPerSecond: int := 60

  /** The shield of a fresh or reset player. */
  const Off: State := State(false, 0)

  /** Raising the shield for `seconds` seconds; a shield already up is
      restarted with the new duration. */
  function Activate(seconds: int): (s: State)
    ensures s.active && s.timer == seconds * TicksPerSecond
  {
    State(true, seconds * TicksPerSecond)
  }

  /** One tick of the shield: only a raised shield counts down, and it drops
      on the tick its count reaches 0 or below. */
  function Update(s: State): (r: State)
    ensures !s.active ==> r == s
    ensures s.active ==> r.timer == s.timer - 1
    ensures s.active ==> (r.active <==> r.timer > 0)
  {
    if s.active then
      var t := s.timer - 1;
      State(t > 0, t)
    else
      s
  }

  /** `n` successive ticks. */
  function Run(s: State, n: nat): State
  {
    if n == 0 then s else Update(Run(s, n - 1))
  }

  /** A shield raised with `t` >= 1 ticks left is still up, counting down,
      for its first `t - 1` ticks, drops on tick `t`, and stays down. */
  lemma {:induction false} CountDown(t: int, n: nat)
    requires t >= 1
    ensures Run(State(true, t), n) == if n < t then State(true, t - n) else State(false, 0)
  {
    if n > 0 {
      CountDown(t, n - 1);
    }
  }

  /** activateShield(d) with d >= 1: up after fewer than d*60 ticks, down
      after exactly d*60, and every later tick changes nothing. */
  lemma ActivateExpires(seconds: int, n: nat)
    requires seconds >= 1
    ensures Run(Activate(seconds), n).active <==> n < seconds * TicksPerSecond
    ensures n >= seconds * TicksPerSecond ==> Run(Activate(seconds), n) == Off
    ensures n >= seconds * TicksPerSecond ==> Update(Run(Activate(seconds), n)) == Run(Activate(seconds), n)
  {
    CountDown(seconds * TicksPerSecond, n);
  }
}
